=== FILE: README.md ===
# RuralLend intake flow in Dafny

RuralLend is a microloan intake prototype written in React. The flow moves through these screens:

- choose a language;
- apply by voice or with a typed form;
- capture an identity card and a selfie (KYC);
- accept the terms;
- watch a three-stage underwriting animation;
- see the decision;
- choose how the money is paid out;
- land on the loans overview.

Help and an offline-recovery screen with an upload queue sit beside the flow.

Nothing in the prototype talks to a server, so all of its logic lives in screen state and click or timer handlers. This project models that logic as pure `(state, event) -> state` functions over immutable datatypes. Timers become discrete events. The project proves the properties the screens are meant to have.

Modules follow the source files:

| module | file | models |
|---|---|---|
| `Common` | common.dfy | optional values, digit stripping (`replace(/\D/g, '')`), substring search, Latin case mapping |
| `JsNumbers` | js_number.dfy | `Number(text)` on form input, `x \|\| default`, `Math.round`, decimal spelling |
| `OfferCard` | offer_card.dfy | the loan offer record, status titles, fee default, total payable |
| `App` | app.dfy | app state, `navigateTo`, `updateAppState`, the callback table, reachability |
| `ManualForm` | manual_form.dfy | the typed form, its validator and its submit handler |
| `Voice` | voice.dfy | the prompt stepper, the transcript, confirm and restart |
| `Kyc` | kyc.dfy | the ID-then-selfie stepper and its hand-off |
| `Consent` | consent.dfy | the summary offer and the consent-gated accept |
| `Underwriting` | underwriting.dfy | three stages completed in order, per-stage status |
| `Decision` | decision.dfy | status texts and the status-dependent actions |
| `Disbursal` | disbursal.dfy | payout method fields, the verify gate, the verified latch |
| `OfflineQueue` | offline_queue.dfy | the upload queue and its one-at-a-time drain |
| `Otp` | otp.dfy | the OTP digit buffer: typed edits, value sync, paste |
| `Help` | help.dfy | FAQ search, the accordion toggle, the schedule-call flag |
| `MyLoans` | my_loans.dfy | remaining balance, progress, due alert, tab counts |
| `ProgressBar` | progress_bar.dfy | width clamp and step markers |

JavaScript numbers are exact rationals (`real`), with NaN as a separate constructor where `Number()` can produce it. `Math.round` is `floor(x + 1/2)`.

The model follows the code. In particular:

- the upload drain has no failure path;
- no handler ever navigates to `offline`;
- help is reached only from home and the loans overview;
- the voice transcript is stored unparsed;
- the UPI id is only checked for being non-empty;
- the account verification always succeeds.

## Model

| member | source | states |
|---|---|---|
| `Common.KeepDigits` | src/components/screens/ManualFormFallback.tsx:187 | the mobile field keeps only decimal digits, never grows, and leaves an all-digit string as it is |
| `Common.KeepDigitsSingle` | src/components/screens/ManualFormFallback.tsx:187 | a single character is kept exactly when it is a digit |
| `Common.KeepDigitsAppend` | src/components/screens/ManualFormFallback.tsx:187 | stripping distributes over concatenation, so with the single-character case it fixes the result for every input |
| `Common.KeepDigitsIdempotent` | src/components/screens/ManualFormFallback.tsx:187 | stripping non-digits twice equals stripping once |
| `Common.KeepDigitsLength` | src/components/RL-OTP.tsx:60 | the stripped string has exactly as many characters as the input has digits |
| `Common.ContainsWitness` | src/components/screens/HelpSupport.tsx:45-48 | a substring found by `includes` occurs at a concrete offset |
| `Common.ContainsAt` | src/components/screens/HelpSupport.tsx:45-48 | a block sitting at any offset of the string is found by `includes` |
| `Common.ContainsIff` | src/components/screens/HelpSupport.tsx:45-48 | `includes` holds exactly when the block sits at some offset |
| `Common.LowerChar` | src/components/screens/HelpSupport.tsx:45-48 | A-Z map to the letter 32 code points up, in a-z; every other character is unchanged |
| `Common.UpperChar` | src/components/screens/DisbursalBankBinding.tsx:214 | a-z map to the letter 32 code points down, in A-Z; every other character is unchanged |
| `Common.CaseRoundTrip` | src/components/screens/DisbursalBankBinding.tsx:214 | lower-casing then upper-casing restores A-Z, and upper-casing then lower-casing restores a-z |
| `Common.ToLower` | src/components/screens/HelpSupport.tsx:45-48 | lower-casing keeps the length and maps each character on its own |
| `Common.ToUpperNoLower` | src/components/screens/DisbursalBankBinding.tsx:214 | an upper-cased string has no Latin lower-case letter, and upper-casing is idempotent |
| `JsNumbers.OrDefaultNonZero` | src/components/screens/ConsentTerms.tsx:26-27 | `x \|\| d` yields the number itself when it is non-zero, and `d` for undefined, 0 and NaN |
| `JsNumbers.Round` | src/components/screens/ConsentTerms.tsx:28-30 | `Math.round(x)` is an integer within half of `x`, halves rounded up |
| `JsNumbers.NatToDecimal` | src/components/screens/VoiceLoanApplication.tsx:74 | the decimal spelling of a number is a non-empty digit string |
| `JsNumbers.IndexOfExponent` | src/components/screens/ManualFormFallback.tsx:49-54 | finds the first `e` or `E`, and reports none exactly when there is none |
| `JsNumbers.ParseExponent` | src/components/screens/ManualFormFallback.tsx:49-54 | an exponent needs at least one digit; an unsigned digit run is its own value |
| `JsNumbers.Scale` | src/components/screens/ManualFormFallback.tsx:49-54 | scaling by a non-negative exponent multiplies by the power of ten, by a negative one divides by it |
| `JsNumbers.ExponentSplit` | src/components/screens/ManualFormFallback.tsx:49-54 | a mantissa, an exponent mark and an exponent read as the mantissa scaled by the exponent, and as nothing when either part is malformed |
| `JsNumbers.ExponentMillion` | src/components/screens/ManualFormFallback.tsx:49-54 | `Number("1e6")` is one million |
| `JsNumbers.ExponentWithPoint` | src/components/screens/ManualFormFallback.tsx:49-54 | `Number("2.5E3")` is 2500 |
| `JsNumbers.ExponentNegative` | src/components/screens/ManualFormFallback.tsx:49-54 | `Number("5e-1")` is 0.5 |
| `JsNumbers.ExponentMissing` | src/components/screens/ManualFormFallback.tsx:49-54 | `Number("1e")` is NaN |
| `JsNumbers.ToNumberOfDecimal` | src/components/screens/ManualFormFallback.tsx:75-76 | `Number` reads back the decimal spelling of every natural number |
| `OfferCard.PropsOf` | src/components/screens/DecisionOfferScreen.tsx:84 | spreading an offer into the card passes every field through unchanged, the fee explicitly |
| `OfferCard.TotalPayableDefaults` | src/components/RL-OfferCard.tsx:19-125 | an omitted fee counts as 0, so the total is the instalments alone and no fee row shows; a given fee adds on top |
| `OfferCard.StatusTitle` | src/components/RL-OfferCard.tsx:22-46 | every status has a non-empty title |
| `OfferCard.StatusTitleInjective` | src/components/RL-OfferCard.tsx:22-46 | two statuses share a title only if they are the same status |
| `App.NavigateTo` | src/App.tsx:63-65 | navigation sets the screen and changes nothing else |
| `App.UpdateAppState` | src/App.tsx:67-69 | each top-level key given in the update is overwritten, every other key is kept |
| `App.UpdateLaws` | src/App.tsx:67-69 | an empty update is the identity, and two updates in a row are one update with the later keys winning |
| `App.Step` | src/App.tsx:71-200 | a callback is accepted exactly when the handler table has it for the current screen (and, on the decision screen, the status offers that button), and it lands on the table's target |
| `App.TargetsFollowEdges` | src/App.tsx:71-200 | every handler stays put or follows an edge of the independently written flow graph, and no handler targets `offline` |
| `App.EdgesHaveCallbacks` | src/App.tsx:71-200 | every edge of the flow graph is taken by some callback |
| `App.InitInv` | src/App.tsx:56-61 | the initial state (language screen, Hindi, empty application and KYC data, no offer) satisfies the flow invariant |
| `App.StepKeepsInv` | src/App.tsx:71-200 | every accepted callback keeps the flow invariant |
| `App.RunKeepsInv` | src/App.tsx:143-175 | along any run the offline screen never shows, and the decision screen always has the fixed approved offer |
| `App.OfflineUnreachable` | src/App.tsx:194-200 | no sequence of callbacks from the start reaches `offline` |
| `App.DecisionCard` | src/App.tsx:143-165 | whatever the user does, the decision screen shows the approved card of the fixed offer, with the fee row and a total of 55996 |
| `App.DisbursalAmount` | src/App.tsx:173 | disbursal receives the offer's amount, or 0 with no offer |
| `App.ConsentSummary` | src/App.tsx:134 | the consent screen's summary is pending and uses the application amount, defaulted with `\|\|` |
| `App.StepData` | src/App.tsx:77-155 | language selection changes only the language; voice completion only the transcript; manual completion writes the four form fields and keeps the transcript; KYC completion replaces both photos; underwriting writes the fixed offer; no callback removes an offer; every other callback changes only the screen |
| `App.EntryPoints` | src/App.tsx:124-175 | consent is entered only by KYC completion, underwriting only by consent accept, decision only from underwriting or back from disbursal, disbursal only from an approved decision |
| `App.TypedApplication` | src/App.tsx:78-116 | language, home, voice, manual form ends on KYC with exactly the four typed fields stored |
| `App.KycToDecision` | src/App.tsx:124-155 | KYC completion, consent accept and underwriting completion end on decision with both photos and the fixed offer |
| `App.ManualPathReachesDisbursal` | src/App.tsx:77-175 | the typed path reaches decision with the fixed offer and the typed amount stored, and accepting opens disbursal for 50000 |
| `ManualForm.Validate` | src/components/screens/ManualFormFallback.tsx:46-70 | each field has an error exactly when its rule fails (amount rule, empty tenure, empty purpose, mobile length not 10), and the map is empty exactly when all pass |
| `ManualForm.Submit` | src/components/screens/ManualFormFallback.tsx:72-81 | submit keeps the data, replaces the errors, and hands on `Number(amount)`, `Number(tenure)`, purpose and mobile exactly when there is no error |
| `ManualForm.Apply` | src/components/screens/ManualFormFallback.tsx:99-187 | the amount edit stores the text, a tenure or purpose button stores its option (an index past the list changes nothing), the mobile edit stores the digits of the text; every other field and the error map are left alone |
| `ManualForm.ApplyPreservesWellFormed` | src/components/screens/ManualFormFallback.tsx:99-187 | each edit changes only its own field and keeps tenure and purpose within the offered lists and the mobile number all digits |
| `ManualForm.ApplyAllWellFormed` | src/components/screens/ManualFormFallback.tsx:99-187 | any sequence of edits keeps the form well formed |
| `ManualForm.TenureOptionsParse` | src/components/screens/ManualFormFallback.tsx:38-44 | every tenure button's value reads as its month count |
| `ManualForm.SubmitWellFormed` | src/components/screens/ManualFormFallback.tsx:64-81 | a well-formed form that submits hands on ten digits, a tenure of 3, 6, 12, 18 or 24, and a listed purpose |
| `ManualForm.SubmittedValuesInRange` | src/components/screens/ManualFormFallback.tsx:28-44 | whatever edits came before, a submitted form carries ten digits, a listed tenure and a listed purpose |
| `ManualForm.AmountRule` | src/components/screens/ManualFormFallback.tsx:49-54 | a whole amount below 1000 gets the minimum error, above 200000 the maximum error, in between none |
| `ManualForm.EmptyAmountTooLow` | src/components/screens/ManualFormFallback.tsx:49-51 | an empty amount gets the minimum error |
| `ManualForm.ExponentAmounts` | src/components/screens/ManualFormFallback.tsx:49-54 | "1e6" gets the maximum error and "2.5E3" passes |
| `ManualForm.NonNumericAmountPasses` | src/components/screens/ManualFormFallback.tsx:49-54 | an amount `Number` reads as NaN gets no amount error from the check |
| `ManualForm.ScenarioAmountTooLow` | src/components/screens/ManualFormFallback.tsx:46-81 | amount 500 is rejected with only the minimum error and the data is unchanged |
| `ManualForm.ScenarioAccepted` | src/components/screens/ManualFormFallback.tsx:72-81 | 50000, 12, a listed purpose and 9123456789 are handed on as numbers 50000 and 12 |
| `Voice.Answer` | src/components/screens/VoiceLoanApplication.tsx:65-73 | every prompt index gets a non-empty answer, the fallback past the list |
| `Voice.AppendLine` | src/components/screens/VoiceLoanApplication.tsx:74 | a line is appended after a newline only when the transcript is non-empty |
| `Voice.ProgressPercent` | src/components/screens/VoiceLoanApplication.tsx:131 | the label is 25 per prompt, between 25 and 100 while the index is on a prompt |
| `Voice.NextStepFixed` | src/components/screens/VoiceLoanApplication.tsx:77-79 | below the last prompt the live index moves on by one, at or past it it stays, so it never passes the last prompt |
| `Voice.StepWith` | src/components/screens/VoiceLoanApplication.tsx:47-107 | a mic press when idle starts listening and launches a recognition capturing the live index; a press while listening stops listening and processing; hearing marks the recognition and turns listening into processing; a recognition appends its line, ends processing and moves the index on by one when the bound test (captured index as written, live index when fixed) is below the last prompt; restart (once complete) clears the transcript and the index; only recognition and restart change the transcript or the index; the speaker button flips only the speaker flag |
| `Voice.Confirm` | src/components/screens/VoiceLoanApplication.tsx:89-93 | confirm is offered exactly when complete and hands on the transcript unchanged |
| `Voice.FixedStepBounded` | src/components/screens/VoiceLoanApplication.tsx:77-79 | with the bound on the live index, no order of events moves the index past the last prompt |
| `Voice.SequentialStep` | src/components/screens/VoiceLoanApplication.tsx:55-82 | when no recognition is started while another is in flight, the screen as written and the fixed one agree, and the sequential invariant holds |
| `Voice.SequentialRunBounded` | src/components/screens/VoiceLoanApplication.tsx:77-79 | used sequentially, the screen as written never moves past the last prompt |
| `Voice.ThreeAnswersComplete` | src/components/screens/VoiceLoanApplication.tsx:55-93 | three answers from the start complete the screen with three transcript lines, and the microphone is then disabled |
| `Voice.RaceOvershoots` | src/components/screens/VoiceLoanApplication.tsx:72-80 | two recognitions launched on the third prompt push the index to 4 and the label to 125%; the fixed bound stops at 3 |
| `Kyc.Step` | src/components/screens/KYCCapture.tsx:20-34 | the step moves by one exactly when accept is pressed with an image shown before the summary; a capture fills the current step's photo with the stand-in image exactly when it is empty, and no other photo; retake changes nothing |
| `Kyc.Complete` | src/components/screens/KYCCapture.tsx:36-38 | the summary hands on the two photos exactly as stored, and only at the summary step |
| `Kyc.Progress` | src/components/screens/KYCCapture.tsx:141 | progress is 0, 50 or 100, and 100 exactly at the summary |
| `Kyc.RunWellFormed` | src/components/screens/KYCCapture.tsx:20-61 | along any run the step never decreases and every step passed has its photo |
| `Kyc.CompletedPhotosPresent` | src/components/screens/KYCCapture.tsx:40-61 | whatever the user does, the photos handed on are both non-empty |
| `Kyc.ShortestPath` | src/components/screens/KYCCapture.tsx:20-34 | capture, accept, capture, accept reaches the summary; accept before capture does nothing |
| `Decision.StatusContentOf` | src/components/screens/DecisionOfferScreen.tsx:22-49 | every status has a non-empty title and subtitle |
| `Decision.Actions` | src/components/screens/DecisionOfferScreen.tsx:182-208 | accept and decline exactly for approved, call exactly for pending, home exactly for pending and rejected |
| `Decision.StatusTitlesDistinct` | src/components/screens/DecisionOfferScreen.tsx:22-49 | two statuses share a header title only if they are the same |
| `Decision.VisibilityByStatus` | src/components/screens/DecisionOfferScreen.tsx:57-86 | the back arrow shows exactly when the offer card does not, which is exactly when home is the only action |
| `Consent.SummaryOffer` | src/components/screens/ConsentTerms.tsx:24-31 | the summary is pending at 18%, with amount and tenure defaulted with `\|\|` (never 0), an integral EMI within half of 118% of the amount over the tenure, and an integral fee within half of 2% of the amount |
| `Consent.SummaryDefaults` | src/components/screens/ConsentTerms.tsx:24-31 | with nothing entered the summary is 50000 over 12 months at 4917 with a 1000 fee, and NaN or 0 inputs give the same |
| `Consent.SummaryTotalNearAmount` | src/components/screens/ConsentTerms.tsx:28-30 | over a positive tenure the card's total payable is within (tenure + 1)/2 of 120% of the amount |
| `Consent.Step` | src/components/screens/ConsentTerms.tsx:164-193 | the checkbox stores its checked state, accept leaves the screen exactly when consent is given, back always leaves |
| `Consent.AcceptNeedsConsent` | src/components/screens/ConsentTerms.tsx:187-190 | leaving by accept from an unchecked screen requires a tick of the checkbox |
| `Underwriting.CompleteStage` | src/components/screens/AIUnderwritingProgress.tsx:39-51 | a completion appends the current stage; before the last stage the index advances, at the last it stays and the hand-off is scheduled |
| `Underwriting.ProgressLabel` | src/components/screens/AIUnderwritingProgress.tsx:171 | the label is the completed stages, plus a half while the index is on a stage, as a rounded share of three |
| `Underwriting.LabelUnderOrder` | src/components/screens/AIUnderwritingProgress.tsx:171 | with one completion per stage the label reads 17, 50, 83, then 117 once all are done |
| `Underwriting.InitialOrdered` | src/components/screens/AIUnderwritingProgress.tsx:30-31 | index 0 and no completed stage satisfy the ordering invariant |
| `Underwriting.CompleteStageKeepsOrdered` | src/components/screens/AIUnderwritingProgress.tsx:40-50 | a completion keeps the completed list a prefix of documents, credit, ai |
| `Underwriting.CompletionsProgress` | src/components/screens/AIUnderwritingProgress.tsx:33-56 | after k completions exactly the first min(k, 3) stages are done in order, and the hand-off is scheduled from the third on |
| `Underwriting.StatusesOrdered` | src/components/screens/AIUnderwritingProgress.tsx:58-63 | under the invariant the statuses read completed, then at most one current, then pending, and the hand-off follows `ai` |
| `Underwriting.RemoveAt` | src/components/screens/AIUnderwritingProgress.tsx:39-51 | a fired timer leaves the other pending timers in order |
| `Underwriting.StepAsWritten` | src/components/screens/AIUnderwritingProgress.tsx:33-56 | while the index is below 3 a tick schedules a timer for the current index, and otherwise does nothing; a fired timer leaves the other timers in order and appends its captured stage; a timer captured before the last stage increments the live index whatever it has become, one captured at the last stage keeps the index and schedules the hand-off |
| `Underwriting.StepFixed` | src/components/screens/AIUnderwritingProgress.tsx:33-56 | a fired timer completes the current stage only when it was scheduled for it; ticks never change the screen |
| `Underwriting.StaleTimersSkipStages` | src/components/screens/AIUnderwritingProgress.tsx:33-56 | three ticks then three firings record `documents` three times and run the index to 3 as written; with the fix only `documents` completes and `credit` is current |
| `Underwriting.StuckNeverHandsOff` | src/components/screens/AIUnderwritingProgress.tsx:33-56 | as written, once the index is past the last stage with no timer pending, no event ever schedules the hand-off |
| `Underwriting.FixedRunOrdered` | src/components/screens/AIUnderwritingProgress.tsx:33-56 | with the fix, every interleaving of ticks and firings keeps the ordering invariant |
| `Disbursal.Actions` | src/components/screens/DisbursalBankBinding.tsx:281-301 | complete is offered exactly once verified, verify and back exactly before |
| `Disbursal.Step` | src/components/screens/DisbursalBankBinding.tsx:25-221 | verified only latches on; switching method changes only the method; the UPI id, account number and holder name edits store their text and the IFSC edit its upper-cased text, each changing nothing else; no other event changes the method or a field; an enabled verify press starts verifying; its end sets verified and clears verifying |
| `Disbursal.StepKeepsConsistent` | src/components/screens/DisbursalBankBinding.tsx:214 | each event keeps the IFSC free of lower-case letters and never has verifying and verified together |
| `Disbursal.RunInvariants` | src/components/screens/DisbursalBankBinding.tsx:25-33 | along any run the screen stays consistent, and once verified it stays verified with complete the only action |
| `Disbursal.CompleteNeedsVerification` | src/components/screens/DisbursalBankBinding.tsx:281-301 | complete is offered only after a verify press |
| `Disbursal.InitialConsistent` | src/components/screens/DisbursalBankBinding.tsx:15-23 | the initial screen (UPI, empty fields) is consistent, offers verify and back, and has verify disabled |
| `Disbursal.VerifyDisabledByMethod` | src/components/screens/DisbursalBankBinding.tsx:286-289 | cash never disables verify; UPI disables it exactly for an empty id; bank enables it exactly when all three fields are filled |
| `OfflineQueue.PendingCount` | src/components/screens/OfflineResumeState.tsx:96 | the pending count is at most the queue length |
| `OfflineQueue.PendingIds` | src/components/screens/OfflineResumeState.tsx:57 | the drain's snapshot holds exactly the ids of the pending entries, one per pending entry |
| `OfflineQueue.PendingIdsDistinct` | src/components/screens/OfflineResumeState.tsx:57 | with unique ids in the queue the snapshot has no repeated id |
| `OfflineQueue.PendingCountZero` | src/components/screens/OfflineResumeState.tsx:96-97 | the count is 0 exactly when no entry is pending, and all-uploaded implies a count of 0 |
| `OfflineQueue.InitialCounts` | src/components/screens/OfflineResumeState.tsx:11-33 | the initial queue has two pending entries, the two KYC photos, and is not all uploaded |
| `OfflineQueue.SetProgress` | src/components/screens/OfflineResumeState.tsx:73-77 | a tick sets the matching entry's progress and makes it completed exactly at 100, leaving other entries alone |
| `OfflineQueue.UploadNext` | src/components/screens/OfflineResumeState.tsx:60-66 | past the last snapshot entry the drain stops and clears uploading; otherwise it starts the next entry at 0 |
| `OfflineQueue.Actions` | src/components/screens/OfflineResumeState.tsx:257-290 | resume exactly when online and all uploaded; upload-now and upload-on-wifi exactly when online with something left; reload and later exactly when offline |
| `OfflineQueue.Step` | src/components/screens/OfflineResumeState.tsx:36-88 | connectivity changes only the online flag; a press that cannot happen changes nothing; only ticks change the entries |
| `OfflineQueue.TickTouchesOnlyCurrent` | src/components/screens/OfflineResumeState.tsx:73-77 | a tick leaves every entry with another id unchanged |
| `OfflineQueue.DrainStepKeepsInv` | src/components/screens/OfflineResumeState.tsx:69-83 | each timer event of a drain keeps the drain invariant and strictly decreases the remaining work |
| `OfflineQueue.DrainAll` | src/components/screens/OfflineResumeState.tsx:53-88 | a drain ends idle, with every entry pending at the start completed at 100 and every other entry untouched |
| `OfflineQueue.DrainInitial` | src/components/screens/OfflineResumeState.tsx:53-97 | draining the initial queue online leaves everything uploaded, so resume is the only action |
| `Otp.InitialBuffer` | src/components/RL-OTP.tsx:13-20 | the buffer starts as `length` empty slots |
| `Otp.SyncFromValue` | src/components/RL-OTP.tsx:23-29 | a non-empty value becomes its first `length` characters, one per slot, padded with empty slots, and joins back to that prefix; an empty value leaves the buffer alone |
| `Otp.LastChar` | src/components/RL-OTP.tsx:35 | multi-character input is cut to its last character |
| `Otp.HandleChange` | src/components/RL-OTP.tsx:31-43 | disabled or non-digit input changes nothing and emits nothing; otherwise only slot `index` takes the digit and the joined slots are emitted |
| `Otp.HandleChangeKeepsDigits` | src/components/RL-OTP.tsx:34-43 | typed edits keep every slot empty or one digit, so the emitted code is digits only and no longer than the buffer |
| `Otp.Paste` | src/components/RL-OTP.tsx:57-72 | a paste keeps the first `length` digits, lays them out from the left, emits exactly them, and focuses a valid slot |
| `Otp.DefaultBuffer` | src/components/RL-OTP.tsx:13-20 | the default field has six empty slots and an empty value |
| `Otp.PasteExtremes` | src/components/RL-OTP.tsx:60-66 | enough digits fill every slot; no digit gives the empty buffer |
| `Help.KeptFrom` | src/components/screens/HelpSupport.tsx:45-48 | the kept positions are increasing, each matches, and every matching position is kept |
| `Help.Filtered` | src/components/screens/HelpSupport.tsx:45-48 | the filtered list is the FAQs at the kept positions |
| `Help.FilterIsOrderedSelection` | src/components/screens/HelpSupport.tsx:45-48 | a FAQ is kept exactly when its lower-cased question or answer contains the lower-cased query, and the order is kept |
| `Help.EmptyQueryKeepsAll` | src/components/screens/HelpSupport.tsx:45-48 | an empty query keeps every FAQ in order |
| `Help.Toggle` | src/components/screens/HelpSupport.tsx:245 | clicking entry k opens it exactly when it was not open, and otherwise closes everything |
| `Help.ToggleTwice` | src/components/screens/HelpSupport.tsx:245 | two clicks on k restore the earlier state exactly when nothing or k was open; with another entry open they end with nothing open |
| `Help.Step` | src/components/screens/HelpSupport.tsx:40-245 | a tab button changes only the tab; scheduling changes only the flag, sets it only on the contact tab, and never clears it; editing the query changes only the query and keeps the expanded position; a click on a shown entry toggles it, and a click on an entry not shown changes nothing |
| `Help.ScheduledCallLatches` | src/components/screens/HelpSupport.tsx:50-52 | once a call is scheduled no event unschedules it |
| `Help.ExpandedFaq` | src/components/screens/HelpSupport.tsx:239-261 | an expanded entry shows exactly when its position lies in the filtered list, and it matches the query |
| `Help.NoResultsIffNoMatch` | src/components/screens/HelpSupport.tsx:275 | on the FAQ tab the no-results message shows exactly when no FAQ matches the query, so never for an empty query |
| `MyLoans.Remaining` | src/components/screens/MyLoansRepayment.tsx:56 | remaining plus paid instalments is the whole tenure's instalments; it is 0 exactly when all are paid |
| `MyLoans.DisplayedProgress` | src/components/screens/MyLoansRepayment.tsx:57 | the label is paid instalments times 100 over the tenure, rounded to the nearest integer; it lies between 0 and 100, is 0 with nothing paid and 100 when fully paid |
| `MyLoans.DueAlert` | src/components/screens/MyLoansRepayment.tsx:181-188 | the alert is red exactly when at most 3 days remain |
| `MyLoans.TabCount` | src/components/screens/MyLoansRepayment.tsx:69-71 | the loans tab shows 1 (the one active loan) and the history tab the number of transactions |
| `MyLoans.ActiveLoanFigures` | src/components/screens/MyLoansRepayment.tsx:12-57 | the mock loan has 41247 remaining, shows 25%, an orange alert, 3 history entries summing to the paid instalments |
| `ProgressBar.Clamp` | src/components/RL-ProgressBar.tsx:20 | the width lies in 0..100, is the identity inside, and 0 or 100 outside |
| `ProgressBar.ClampIdempotentMonotone` | src/components/RL-ProgressBar.tsx:20 | clamping twice equals clamping once, and clamping keeps order |
| `ProgressBar.Classify` | src/components/RL-ProgressBar.tsx:36-41 | a step is done, current or upcoming exactly as its index is below, at or above the current step |
| `ProgressBar.Markers` | src/components/RL-ProgressBar.tsx:25-44 | one marker per label (none without labels), numbered i + 1, highlighted up to the current step |
| `ProgressBar.MarkerShapes` | src/components/RL-ProgressBar.tsx:31-41 | highlighted is exactly not upcoming, and at most one marker is current |

## Left out

- Markup, styling, icons and `toLocaleString('hi-IN')` currency formatting are presentation only.
- Speech synthesis is left out: on the voice screen the prompts are spoken, and on the consent screen the read-out's end is the `PlaybackEnded` event.
- Also left out: the clipboard, `localStorage`, `window.open` tel links, `window.location.reload`, DOM focus refs, and the OTP backspace focus handler.
- `navigator.onLine` and the online/offline listeners become the `ConnectivityChanged` event.
- Timers are discrete events: the voice recogniser's two delays, the camera delay, the verification delay, the upload ticks and pauses, and the underwriting completions.
- Underwriting.CompleteStage: models the intended rule of one completion per stage. The duplicate completions of the component's timers are modelled separately by `Underwriting.StepAsWritten`; see "Findings".
- Floating point is not modelled. All arithmetic is exact rational arithmetic, so no claim is made about bit-equality with JavaScript doubles.
- The voice progress bar width is left out; only its rounded label is modelled.
- Common.ToLower: maps only the Latin letters A-Z. JavaScript's `toLowerCase` also maps other cased scripts. Devanagari has no case, so the FAQ texts here are unaffected.
- Common.ToUpperNoLower: upper-casing is modelled for a-z only. JavaScript's `toUpperCase` also maps letters such as é to É, and ß to "SS", which lengthens the string. An IFSC is Latin letters and digits, so valid input is unaffected, and the lemma makes no claim about other scripts.
- JsNumbers.ToNumberOfDecimal: `Number()` is modelled for the empty string and optionally signed decimal literals with an optional exponent, which covers every value a number field hands over (the browser reports unparsable text as ""). Whitespace trimming, hex, binary and octal prefixes, and `Infinity` are outside the model.
- MyLoans.DisplayedProgress: requires a positive tenure. The source only ever shows its fixed mock loan, whose tenure is 12.
- App.Step: each screen's inner gates are proved in that screen's module, not repeated in the app model. Examples are the consent checkbox, the verified disbursal and the complete voice transcript. The app callbacks carry the values those screens hand on.
- App.UpdateAppState: an update can set an offer but never clears one, because no callback passes an explicit `undefined`.
- On the decision screen the home buttons and the back arrow are both the screen's `onBack`, so they are one `Back` event. The call button opens a tel link and stays on the screen.
- The offline screen's "upload on wifi" and "later" buttons call `onRetry`, which goes home. Only the `Retry` and `Resume` callbacks are modelled.
- The KYC camera's retake button is passed no handler by the capture screen, so it does nothing.
- The camera's "capturing" spinner is left out.
- Manual form option buttons are modelled by their index in the fixed lists.
- The voice screen never answers its fourth prompt (see `Voice.ThreeAnswersComplete`). The stored transcript is never parsed into amount or tenure.
- Help.ToggleTwice: two clicks restore the earlier state only when nothing or the same entry was open. With another entry open, two clicks end with everything closed.
- The expanded FAQ is a position in the current filtered list, as in the source. After the query changes, the same position can name a different FAQ.

## Findings

| source | as written | input that shows it | evidently intended | confidence | as-written member | corrected member |
|---|---|---|---|---|---|---|
| src/components/screens/VoiceLoanApplication.tsx:72-80 | The recognition timer tests `currentStep < prompts.length - 1` on the prompt index captured when listening started, but increments the live index (`prev => prev + 1`). | On the third prompt (index 2): press the mic, press it again to stop, then press it a third time before the first recognition lands. Both recognitions append an answer and both increment, so the index reaches 4 and the progress label reads 125%. | The index stops at the last prompt (3) whatever the timing, as the guard intends. | not executed | `Voice.RaceOvershoots` | `Voice.FixedStepBounded` |
| src/components/screens/AIUnderwritingProgress.tsx:33-56 | The 100 ms interval schedules a 3-second completion timer on every tick, capturing the index of that tick. Changing the index clears only the interval, so the earlier timers still fire; each appends its stage again and increments the live index with `prev => prev + 1`. | Three ticks, then the three timers they scheduled fire: `documents` is recorded three times and the index reaches 3 while `credit` and `ai` never complete. With the index at 3 the interval schedules nothing, so `onComplete` is never called. | Each stage completes once, in order, and the hand-off follows the third. | not executed | `Underwriting.StaleTimersSkipStages` | `Underwriting.FixedRunOrdered` |

=== FILE: app.dfy ===
/** The application shell: one state record for the whole intake flow, the two state
    updaters (`navigateTo`, `updateAppState`), and the table of screen callbacks that move
    between the twelve screens and write the application, KYC and offer data. */
module App {
  import opened Common
  import opened JsNumbers
  import opened OfferCard
  import Decision
  import ManualForm
  import Consent

  datatype Screen =
    | LanguageScreen | HomeScreen | VoiceLoan | ManualFormScreen | KycScreen | ConsentScreen
    | UnderwritingScreen | DecisionScreen | DisbursalScreen | MyLoansScreen | HelpScreen | OfflineScreen

  datatype Language = Hindi | Tamil | Telugu | Marathi | Bengali | English

  /** The application under construction; every field may still be missing. */
  datatype LoanApplication = LoanApplication(
    amount: Option<JsNumber>,
    tenure: Option<JsNumber>,
    purpose: Option<string>,
    mobileNumber: Option<string>,
    voiceTranscript: Option<string>)

  datatype KycData = KycData(idPhoto: Option<string>, selfiePhoto: Option<string>)

  datatype AppState = AppState(
    currentScreen: Screen,
    language: Language,
    loanApplication: LoanApplication,
    kycData: KycData,
    loanOffer: Option<LoanOffer>)

  const EmptyApplication: LoanApplication := LoanApplication(None, None, None, None, None)

  const EmptyKyc: KycData := KycData(None, None)

  /** The first screen, in Hindi, with nothing entered and no offer. */
  const Init: AppState := AppState(LanguageScreen, Hindi, EmptyApplication, EmptyKyc, None)

  /** The offer the underwriting mock always produces. */
  const FixedOffer: LoanOffer := LoanOffer(Approved, 50000.0, 12.0, 4583.0, 18.0, 1000.0)

  /** `navigateTo`: only the current screen changes. */
  function NavigateTo(s: AppState, screen: Screen): (r: AppState)
    ensures r.currentScreen == screen
    ensures r.(currentScreen := s.currentScreen) == s
  {
    s.(currentScreen := screen)
  }

  /** The argument of `updateAppState`: the top-level keys to overwrite. */
  datatype Partial = Partial(
    currentScreen: Option<Screen>,
    language: Option<Language>,
    loanApplication: Option<LoanApplication>,
    kycData: Option<KycData>,
    loanOffer: Option<LoanOffer>)

  const NoUpdate: Partial := Partial(None, None, None, None, None)

  /** `{ ...prev, ...updates }`: a key given in the update replaces the old value, every
      other key is kept. */
  function UpdateAppState(s: AppState, u: Partial): (r: AppState)
    ensures r.currentScreen == u.currentScreen.GetOr(s.currentScreen)
    ensures r.language == u.language.GetOr(s.language)
    ensures r.loanApplication == u.loanApplication.GetOr(s.loanApplication)
    ensures r.kycData == u.kycData.GetOr(s.kycData)
    ensures r.loanOffer == (if u.loanOffer.Some? then u.loanOffer else s.loanOffer)
  {
    AppState(
      u.currentScreen.GetOr(s.currentScreen),
      u.language.GetOr(s.language),
      u.loanApplication.GetOr(s.loanApplication),
      u.kycData.GetOr(s.kycData),
      if u.loanOffer.Some? then u.loanOffer else s.loanOffer)
  }

  /** Later keys win when two updates are spread one after the other. */
  function Then(u: Partial, v: Partial): Partial {
    Partial(
      if v.currentScreen.Some? then v.currentScreen else u.currentScreen,
      if v.language.Some? then v.language else u.language,
      if v.loanApplication.Some? then v.loanApplication else u.loanApplication,
      if v.kycData.Some? then v.kycData else u.kycData,
      if v.loanOffer.Some? then v.loanOffer else u.loanOffer)
  }

  /** An empty update changes nothing, and two updates in a row are one merged update. */
  lemma UpdateLaws(s: AppState, u: Partial, v: Partial)
    ensures UpdateAppState(s, NoUpdate) == s
    ensures UpdateAppState(UpdateAppState(s, u), v) == UpdateAppState(s, Then(u, v))
  {
  }

  /** The callbacks the screens call, named after the user action behind them. `Back` is
      each screen's `onBack` (on the decision screen, also its home buttons). */
  datatype AppEvent =
    | SelectLanguage(chosen: Language) | GetStarted
    | ApplyLoan | OpenMyLoans | OpenHelp | ToggleLanguage
    | Back | ManualFallback
    | VoiceComplete(transcript: string)
    | ManualComplete(form: ManualForm.Submission)
    | KycComplete(idPhoto: string, selfiePhoto: string)
    | ConsentAccept
    | UnderwritingComplete
    | DecisionAccept | DecisionDecline | CallLender
    | DisbursalComplete
    | Retry | Resume

  /** The screen a callback leads to, or None when the current screen offers no such
      callback. On the decision screen the offer's status decides which buttons exist. */
  function Target(from: Screen, e: AppEvent, status: Option<OfferStatus>): Option<Screen> {
    match from
    case LanguageScreen =>
      (match e
       case SelectLanguage(_) => Some(LanguageScreen)
       case GetStarted => Some(HomeScreen)
       case _ => None)
    case HomeScreen =>
      (match e
       case ApplyLoan => Some(VoiceLoan)
       case OpenMyLoans => Some(MyLoansScreen)
       case OpenHelp => Some(HelpScreen)
       case ToggleLanguage => Some(LanguageScreen)
       case _ => None)
    case VoiceLoan =>
      (match e
       case Back => Some(HomeScreen)
       case ManualFallback => Some(ManualFormScreen)
       case VoiceComplete(_) => Some(KycScreen)
       case _ => None)
    case ManualFormScreen =>
      (match e
       case Back => Some(VoiceLoan)
       case ManualComplete(_) => Some(KycScreen)
       case _ => None)
    case KycScreen =>
      (match e
       case Back => Some(HomeScreen)
       case KycComplete(_, _) => Some(ConsentScreen)
       case _ => None)
    case ConsentScreen =>
      (match e
       case Back => Some(KycScreen)
       case ConsentAccept => Some(UnderwritingScreen)
       case _ => None)
    case UnderwritingScreen =>
      (match e
       case UnderwritingComplete => Some(DecisionScreen)
       case _ => None)
    case DecisionScreen =>
      if status.None? then None
      else
        var actions := Decision.Actions(status.value);
        (match e
         case DecisionAccept => if Decision.AcceptAction in actions then Some(DisbursalScreen) else None
         case DecisionDecline => if Decision.DeclineAction in actions then Some(HomeScreen) else None
         case Back =>
           if Decision.HomeAction in actions || Decision.ShowsBack(status.value) then Some(HomeScreen) else None
         case CallLender => if Decision.CallAction in actions then Some(DecisionScreen) else None
         case _ => None)
    case DisbursalScreen =>
      (match e
       case Back => Some(DecisionScreen)
       case DisbursalComplete => Some(MyLoansScreen)
       case _ => None)
    case MyLoansScreen =>
      (match e
       case Back => Some(HomeScreen)
       case OpenHelp => Some(HelpScreen)
       case _ => None)
    case HelpScreen =>
      (match e
       case Back => Some(HomeScreen)
       case _ => None)
    case OfflineScreen =>
      (match e
       case Retry => Some(HomeScreen)
       case Resume => Some(KycScreen)
       case _ => None)
  }

  function OfferStatusOf(s: AppState): Option<OfferStatus> {
    if s.loanOffer.Some? then Some(s.loanOffer.value.status) else None
  }

  /** The `updateAppState` a callback performs before it navigates. */
  function Updates(s: AppState, e: AppEvent): Partial {
    var app := s.loanApplication;
    match e
    case SelectLanguage(l) => NoUpdate.(language := Some(l))
    case VoiceComplete(t) => NoUpdate.(loanApplication := Some(app.(voiceTranscript := Some(t))))
    case ManualComplete(f) =>
      NoUpdate.(loanApplication := Some(app.(amount := Some(f.amount), tenure := Some(f.tenure),
                                             purpose := Some(f.purpose), mobileNumber := Some(f.mobileNumber))))
    case KycComplete(id, selfie) => NoUpdate.(kycData := Some(KycData(Some(id), Some(selfie))))
    case UnderwritingComplete => NoUpdate.(loanOffer := Some(FixedOffer))
    case _ => NoUpdate
  }

  /** One callback: None when the current screen has no such callback; otherwise its state
      update followed by its navigation. */
  function Step(s: AppState, e: AppEvent): (r: Option<AppState>)
    ensures r.Some? <==> Target(s.currentScreen, e, OfferStatusOf(s)).Some?
    ensures r.Some? ==> r.value.currentScreen == Target(s.currentScreen, e, OfferStatusOf(s)).value
  {
    var t := Target(s.currentScreen, e, OfferStatusOf(s));
    if t.None? then None else Some(NavigateTo(UpdateAppState(s, Updates(s, e)), t.value))
  }

  /** A run of callbacks; one the current screen does not offer changes nothing. */
  function Run(s: AppState, es: seq<AppEvent>): AppState
    decreases |es|
  {
    if es == [] then s else Run(Step(s, es[0]).GetOr(s), es[1..])
  }

  /** The navigation edges of the flow, written out independently of the handler table. */
  const Edges: set<(Screen, Screen)> := {
    (LanguageScreen, HomeScreen),
    (HomeScreen, VoiceLoan), (HomeScreen, MyLoansScreen), (HomeScreen, HelpScreen), (HomeScreen, LanguageScreen),
    (VoiceLoan, HomeScreen), (VoiceLoan, ManualFormScreen), (VoiceLoan, KycScreen),
    (ManualFormScreen, VoiceLoan), (ManualFormScreen, KycScreen),
    (KycScreen, HomeScreen), (KycScreen, ConsentScreen),
    (ConsentScreen, KycScreen), (ConsentScreen, UnderwritingScreen),
    (UnderwritingScreen, DecisionScreen),
    (DecisionScreen, DisbursalScreen), (DecisionScreen, HomeScreen),
    (DisbursalScreen, DecisionScreen), (DisbursalScreen, MyLoansScreen),
    (MyLoansScreen, HomeScreen), (MyLoansScreen, HelpScreen),
    (HelpScreen, HomeScreen),
    (OfflineScreen, HomeScreen), (OfflineScreen, KycScreen)
  }

  /** Every callback either stays on its screen or follows an edge, and no edge leads to the
      offline screen. */
  lemma TargetsFollowEdges(from: Screen, e: AppEvent, status: Option<OfferStatus>)
    ensures Target(from, e, status).Some? ==>
      Target(from, e, status).value == from || (from, Target(from, e, status).value) in Edges
    ensures forall a, b :: (a, b) in Edges ==> b != OfflineScreen
    ensures Target(from, e, status) != Some(OfflineScreen)
  {
  }

  /** Conversely every edge is some callback's, with the approved offer on the decision
      screen (the only offer the flow produces). */
  lemma EdgesHaveCallbacks(a: Screen, b: Screen)
    requires (a, b) in Edges
    ensures exists e :: Target(a, e, Some(Approved)) == Some(b)
  {
    var e: AppEvent :=
      match (a, b)
      case (LanguageScreen, _) => GetStarted
      case (HomeScreen, VoiceLoan) => ApplyLoan
      case (HomeScreen, MyLoansScreen) => OpenMyLoans
      case (HomeScreen, HelpScreen) => OpenHelp
      case (HomeScreen, _) => ToggleLanguage
      case (VoiceLoan, HomeScreen) => Back
      case (VoiceLoan, ManualFormScreen) => ManualFallback
      case (VoiceLoan, _) => VoiceComplete("")
      case (ManualFormScreen, VoiceLoan) => Back
      case (ManualFormScreen, _) => ManualComplete(ManualForm.Submission(NaN, NaN, "", ""))
      case (KycScreen, HomeScreen) => Back
      case (KycScreen, _) => KycComplete("", "")
      case (ConsentScreen, KycScreen) => Back
      case (ConsentScreen, _) => ConsentAccept
      case (UnderwritingScreen, _) => UnderwritingComplete
      case (DecisionScreen, DisbursalScreen) => DecisionAccept
      case (DecisionScreen, _) => DecisionDecline
      case (DisbursalScreen, DecisionScreen) => Back
      case (DisbursalScreen, _) => DisbursalComplete
      case (MyLoansScreen, HomeScreen) => Back
      case (MyLoansScreen, _) => OpenHelp
      case (HelpScreen, _) => Back
      case (OfflineScreen, HomeScreen) => Retry
      case (OfflineScreen, _) => Resume;
    assert Target(a, e, Some(Approved)) == Some(b);
  }

  predicate KycPresent(k: KycData) {
    k.idPhoto.Some? && k.selfiePhoto.Some?
  }

  /** What holds on every state reached from the start: never offline; the screens after
      KYC have both photos; the decision and disbursal screens have an offer; and an offer,
      once there, is the underwriting mock's and comes after KYC. */
  predicate Inv(s: AppState) {
    && s.currentScreen != OfflineScreen
    && (s.currentScreen in {ConsentScreen, UnderwritingScreen, DecisionScreen, DisbursalScreen} ==> KycPresent(s.kycData))
    && (s.currentScreen in {DecisionScreen, DisbursalScreen} ==> s.loanOffer.Some?)
    && (s.loanOffer.Some? ==> s.loanOffer == Some(FixedOffer) && KycPresent(s.kycData))
  }

  lemma InitInv()
    ensures Inv(Init)
  {
  }

  lemma StepKeepsInv(s: AppState, e: AppEvent)
    requires Inv(s)
    ensures Step(s, e).Some? ==> Inv(Step(s, e).value)
  {
  }

  /** From the start, whatever the user does: the offline screen is never shown, the
      decision screen always has the approved fixed offer to show, and the disbursal screen
      always receives its amount. */
  lemma {:induction false} RunKeepsInv(s: AppState, es: seq<AppEvent>)
    requires Inv(s)
    ensures Inv(Run(s, es))
    ensures Run(s, es).currentScreen != OfflineScreen
    ensures Run(s, es).currentScreen == DecisionScreen ==> Run(s, es).loanOffer == Some(FixedOffer)
    decreases |es|
  {
    if es != [] {
      StepKeepsInv(s, es[0]);
      RunKeepsInv(Step(s, es[0]).GetOr(s), es[1..]);
    }
  }

  lemma OfflineUnreachable(es: seq<AppEvent>)
    ensures Run(Init, es).currentScreen != OfflineScreen
  {
    InitInv();
    RunKeepsInv(Init, es);
  }

  /** Whatever the user does, the decision screen shows the approved card of the fixed
      offer: 12 instalments of 4,583 plus the 1,000 fee make a total of 55,996, and the
      fee row is shown. */
  lemma DecisionCard(es: seq<AppEvent>)
    ensures var s := Run(Init, es);
      s.currentScreen == DecisionScreen ==>
        && s.loanOffer.Some?
        && Decision.ShowsOfferCard(s.loanOffer.value.status)
        && StatusTitle(s.loanOffer.value.status) == "ऋण स्वीकृत!"
        && TotalPayable(PropsOf(s.loanOffer.value)) == 55996.0
        && ShowsFeeRow(PropsOf(s.loanOffer.value))
  {
    InitInv();
    RunKeepsInv(Init, es);
  }

  /** The amount the disbursal screen receives: `loanOffer?.amount || 0`. */
  function DisbursalAmount(s: AppState): (a: real)
    ensures s.loanOffer.None? ==> a == 0.0
    ensures s.loanOffer.Some? ==> a == s.loanOffer.value.amount
  {
    if s.loanOffer.Some? && s.loanOffer.value.amount != 0.0 then s.loanOffer.value.amount else 0.0
  }

  /** The consent screen's summary is computed from the application's amount and tenure. */
  function ConsentSummary(s: AppState): (o: LoanOffer)
    ensures o.status == Pending
    ensures o.amount == OrDefault(s.loanApplication.amount, Consent.DefaultAmount)
  {
    Consent.SummaryOffer(Consent.LoanData(s.loanApplication.amount, s.loanApplication.tenure))
  }

  /** How the data fields change: language selection touches only the language; voice
      completion only the transcript; manual completion the four form fields, keeping the
      transcript; KYC completion replaces both photos; no callback removes an offer. */
  lemma StepData(s: AppState, e: AppEvent)
    requires Step(s, e).Some?
    ensures var t := Step(s, e).value;
      && (e.SelectLanguage? ==> t == s.(language := e.chosen))
      && (e.VoiceComplete? ==>
            t.loanApplication == s.loanApplication.(voiceTranscript := Some(e.transcript))
            && t.kycData == s.kycData && t.loanOffer == s.loanOffer && t.language == s.language)
      && (e.ManualComplete? ==>
            && t.loanApplication.voiceTranscript == s.loanApplication.voiceTranscript
            && t.loanApplication.amount == Some(e.form.amount)
            && t.loanApplication.tenure == Some(e.form.tenure)
            && t.loanApplication.purpose == Some(e.form.purpose)
            && t.loanApplication.mobileNumber == Some(e.form.mobileNumber)
            && t.kycData == s.kycData && t.loanOffer == s.loanOffer)
      && (e.KycComplete? ==> t.kycData == KycData(Some(e.idPhoto), Some(e.selfiePhoto)) && t.loanApplication == s.loanApplication)
      && (e.UnderwritingComplete? ==> t.loanOffer == Some(FixedOffer))
      && (s.loanOffer.Some? ==> t.loanOffer.Some?)
      && (!(e.SelectLanguage? || e.VoiceComplete? || e.ManualComplete? || e.KycComplete? || e.UnderwritingComplete?) ==>
            t == s.(currentScreen := t.currentScreen))
  {
  }

  /** How each screen can be entered: consent only by KYC completion, underwriting only by
      consent acceptance, and the decision screen only by underwriting completion or back
      from disbursal. */
  lemma EntryPoints(s: AppState, e: AppEvent)
    requires Step(s, e).Some?
    ensures var t := Step(s, e).value;
      && (t.currentScreen == ConsentScreen ==> s.currentScreen == KycScreen && e.KycComplete?)
      && (t.currentScreen == UnderwritingScreen ==> s.currentScreen == ConsentScreen && e == ConsentAccept)
      && (t.currentScreen == DecisionScreen && s.currentScreen != DecisionScreen ==>
            (s.currentScreen == UnderwritingScreen && e == UnderwritingComplete)
            || (s.currentScreen == DisbursalScreen && e == Back))
      && (t.currentScreen == DisbursalScreen ==> s.currentScreen == DecisionScreen && s.loanOffer.Some? && s.loanOffer.value.status == Approved)
  {
  }

  lemma {:induction false} RunAppend(s: AppState, a: seq<AppEvent>, b: seq<AppEvent>)
    ensures Run(s, a + b) == Run(Run(s, a), b)
    decreases |a|
  {
    if a == [] {
      assert a + b == b;
    } else {
      assert (a + b)[0] == a[0] && (a + b)[1..] == a[1..] + b;
      RunAppend(Step(s, a[0]).GetOr(s), a[1..], b);
    }
  }

  /** Language, home, voice, then the typed form: the KYC screen with the four form
      fields stored. */
  lemma TypedApplication(f: ManualForm.Submission)
    ensures Run(Init, [GetStarted, ApplyLoan, ManualFallback, ManualComplete(f)]) ==
      Init.(currentScreen := KycScreen,
            loanApplication := EmptyApplication.(amount := Some(f.amount), tenure := Some(f.tenure),
                                                 purpose := Some(f.purpose), mobileNumber := Some(f.mobileNumber)))
  {
    var s1 := Step(Init, GetStarted).value;
    var s2 := Step(s1, ApplyLoan).value;
    var s3 := Step(s2, ManualFallback).value;
    var s4 := Step(s3, ManualComplete(f)).value;
    assert Run(s3, [ManualComplete(f)]) == s4;
    assert Run(s2, [ManualFallback, ManualComplete(f)]) == s4;
    assert Run(s1, [ApplyLoan, ManualFallback, ManualComplete(f)]) == s4;
  }

  /** From KYC without an offer: KYC completion, consent, and underwriting end on the
      decision screen with the photos and the fixed offer. */
  lemma KycToDecision(s: AppState, id: string, selfie: string)
    requires s.currentScreen == KycScreen
    ensures Run(s, [KycComplete(id, selfie), ConsentAccept, UnderwritingComplete]) ==
      s.(currentScreen := DecisionScreen, kycData := KycData(Some(id), Some(selfie)), loanOffer := Some(FixedOffer))
  {
    var s5 := Step(s, KycComplete(id, selfie)).value;
    var s6 := Step(s5, ConsentAccept).value;
    var s7 := Step(s6, UnderwritingComplete).value;
    assert Run(s6, [UnderwritingComplete]) == s7;
    assert Run(s5, [ConsentAccept, UnderwritingComplete]) == s7;
  }

  /** The typed path: language, home, voice, manual form, KYC, consent, underwriting ends on
      the decision screen with the fixed offer; accepting it opens disbursal for 50000. */
  lemma ManualPathReachesDisbursal(f: ManualForm.Submission, id: string, selfie: string)
    ensures var s := Run(Init, [GetStarted, ApplyLoan, ManualFallback, ManualComplete(f), KycComplete(id, selfie),
                                ConsentAccept, UnderwritingComplete]);
      && s.currentScreen == DecisionScreen
      && s.loanOffer == Some(FixedOffer)
      && s.loanApplication.amount == Some(f.amount)
      && Run(s, [DecisionAccept]).currentScreen == DisbursalScreen
      && DisbursalAmount(Run(s, [DecisionAccept])) == 50000.0
  {
    var first := [GetStarted, ApplyLoan, ManualFallback, ManualComplete(f)];
    var second := [KycComplete(id, selfie), ConsentAccept, UnderwritingComplete];
    assert first + second == [GetStarted, ApplyLoan, ManualFallback, ManualComplete(f), KycComplete(id, selfie),
                              ConsentAccept, UnderwritingComplete];
    RunAppend(Init, first, second);
    TypedApplication(f);
    KycToDecision(Run(Init, first), id, selfie);
    var s7 := Run(Init, first + second);
    assert Run(s7, [DecisionAccept]) == Step(s7, DecisionAccept).value;
  }
}

=== FILE: common.dfy ===
/** Small value types and string helpers shared by every screen of the intake flow. */
module Common {

  /** An optional value: a JavaScript property that may be `undefined`. */
  datatype Option<+T> = None | Some(value: T) {
    /** The value, or `default` when absent (the `?? default` of the source). */
    function GetOr(default: T): T {
      match this
      case Some(v) => v
      case None => default
    }
  }

  /** A decimal digit, the class `\d` of a JavaScript regular expression. */
  predicate IsDigit(c: char) {
    '0' <= c <= '9'
  }

  predicate AllDigits(s: string) {
    forall i :: 0 <= i < |s| ==> IsDigit(s[i])
  }

  /** `s.replace(/\D/g, '')`: keeps exactly the decimal digits of `s`, in order. */
  function KeepDigits(s: string): (r: string)
    ensures AllDigits(r)
    ensures |r| <= |s|
    ensures AllDigits(s) ==> r == s
  {
    if s == [] then []
    else if IsDigit(s[0]) then [s[0]] + KeepDigits(s[1..])
    else KeepDigits(s[1..])
  }

  /** The strip works character by character: a digit is kept, anything else dropped. */
  lemma KeepDigitsSingle(c: char)
    ensures KeepDigits([c]) == if IsDigit(c) then [c] else []
  {
    assert [c][1..] == [];
  }

  /** The strip distributes over concatenation, so together with `KeepDigitsSingle` it
      determines the result of every input. */
  lemma {:induction false} KeepDigitsAppend(a: string, b: string)
    ensures KeepDigits(a + b) == KeepDigits(a) + KeepDigits(b)
  {
    if a == [] {
      assert a + b == b;
    } else {
      assert (a + b)[0] == a[0];
      assert (a + b)[1..] == a[1..] + b;
      KeepDigitsAppend(a[1..], b);
    }
  }

  /** Stripping non-digits twice is the same as stripping once. */
  lemma KeepDigitsIdempotent(s: string)
    ensures KeepDigits(KeepDigits(s)) == KeepDigits(s)
  {
  }

  /** Every digit of `s` survives the strip: the digit count of `s` is the length of the result. */
  function DigitCount(s: string): nat {
    if s == [] then 0 else (if IsDigit(s[0]) then 1 else 0) + DigitCount(s[1..])
  }

  lemma {:induction false} KeepDigitsLength(s: string)
    ensures |KeepDigits(s)| == DigitCount(s)
  {
    if s != [] {
      KeepDigitsLength(s[1..]);
    }
  }

  /** `s.includes(sub)`: `sub` occurs as a contiguous block of `s`. */
  predicate Contains(s: string, sub: string) {
    sub <= s || (s != [] && Contains(s[1..], sub))
  }

  /** A block found by `Contains` really sits at some offset of `s`. */
  lemma {:induction false} ContainsWitness(s: string, sub: string)
    requires Contains(s, sub)
    ensures exists i {:trigger s[i..]} :: 0 <= i <= |s| - |sub| && sub <= s[i..]
  {
    if sub <= s {
      assert s[0..] == s;
    } else {
      ContainsWitness(s[1..], sub);
      var i :| 0 <= i <= |s[1..]| - |sub| && sub <= s[1..][i..];
      assert s[1..][i..] == s[i + 1..];
    }
  }

  /** Conversely, a block at any offset of `s` is found by `Contains`. */
  lemma {:induction false} ContainsAt(s: string, sub: string, i: nat)
    requires i <= |s| - |sub| && sub <= s[i..]
    ensures Contains(s, sub)
  {
    if i == 0 {
      assert s[0..] == s;
    } else {
      assert s[1..][i - 1..] == s[i..];
      ContainsAt(s[1..], sub, i - 1);
    }
  }

  /** `Contains` holds exactly when `sub` sits at some offset of `s`. */
  lemma ContainsIff(s: string, sub: string)
    ensures Contains(s, sub) <==> exists i {:trigger s[i..]} :: 0 <= i <= |s| - |sub| && sub <= s[i..]
  {
    if Contains(s, sub) {
      ContainsWitness(s, sub);
    } else if exists i {:trigger s[i..]} :: 0 <= i <= |s| - |sub| && sub <= s[i..] {
      var i :| 0 <= i <= |s| - |sub| && sub <= s[i..];
      ContainsAt(s, sub, i);
    }
  }

  /** `String.prototype.toLowerCase` on the Latin letters A-Z; every other character is unchanged. */
  function LowerChar(c: char): (r: char)
    ensures 'A' <= c <= 'Z' ==> 'a' <= r <= 'z' && r as int == c as int + 32
    ensures !('A' <= c <= 'Z') ==> r == c
  {
    if 'A' <= c <= 'Z' then (c as int - 'A' as int + 'a' as int) as char else c
  }

  /** `String.prototype.toUpperCase` on the Latin letters a-z; every other character is unchanged. */
  function UpperChar(c: char): (r: char)
    ensures 'a' <= c <= 'z' ==> 'A' <= r <= 'Z' && r as int == c as int - 32
    ensures !('a' <= c <= 'z') ==> r == c
  {
    if 'a' <= c <= 'z' then (c as int - 'a' as int + 'A' as int) as char else c
  }

  function ToLower(s: string): (r: string)
    ensures |r| == |s|
    ensures forall i :: 0 <= i < |s| ==> r[i] == LowerChar(s[i])
  {
    seq(|s|, i requires 0 <= i < |s| => LowerChar(s[i]))
  }

  function ToUpper(s: string): (r: string)
    ensures |r| == |s|
    ensures forall i :: 0 <= i < |s| ==> r[i] == UpperChar(s[i])
  {
    seq(|s|, i requires 0 <= i < |s| => UpperChar(s[i]))
  }

  /** No Latin lower-case letter occurs in `s`. */
  predicate NoLowerLatin(s: string) {
    forall i :: 0 <= i < |s| ==> !('a' <= s[i] <= 'z')
  }

  /** The two case maps undo each other on the Latin letters. */
  lemma CaseRoundTrip(c: char)
    ensures 'A' <= c <= 'Z' ==> UpperChar(LowerChar(c)) == c
    ensures 'a' <= c <= 'z' ==> LowerChar(UpperChar(c)) == c
  {
  }

  lemma ToUpperNoLower(s: string)
    ensures NoLowerLatin(ToUpper(s))
    ensures ToUpper(ToUpper(s)) == ToUpper(s)
  {
  }
}

=== FILE: consent.dfy ===
/** The terms-and-consent screen: a summary offer derived from the application, an audio
    read-out, a consent checkbox, and the accept button it gates. */
module Consent {
  import opened Common
  import opened JsNumbers
  import opened OfferCard

  const DefaultAmount: real := 50000.0
  const DefaultTenure: real := 12.0
  const SummaryRate: real := 18.0

  /** The application fields the summary reads. */
  datatype LoanData = LoanData(amount: Option<JsNumber>, tenure: Option<JsNumber>)

  /** `mockOffer`: status pending, rate 18, amount and tenure defaulted with `||`, the
      instalment as 118% of the amount spread over the tenure, and a 2% fee, both rounded. */
  function SummaryOffer(d: LoanData): (o: LoanOffer)
    ensures o.status == Pending && o.interestRate == SummaryRate
    ensures o.amount == OrDefault(d.amount, DefaultAmount) && o.amount != 0.0
    ensures o.tenure == OrDefault(d.tenure, DefaultTenure) && o.tenure != 0.0
    ensures o.emi == o.emi.Floor as real && o.amount * 1.18 / o.tenure - 0.5 < o.emi <= o.amount * 1.18 / o.tenure + 0.5
    ensures o.processingFee == o.processingFee.Floor as real
    ensures o.amount * 0.02 - 0.5 < o.processingFee <= o.amount * 0.02 + 0.5
  {
    OrDefaultNonZero(d.amount, DefaultAmount);
    OrDefaultNonZero(d.tenure, DefaultTenure);
    var amount := OrDefault(d.amount, DefaultAmount);
    var tenure := OrDefault(d.tenure, DefaultTenure);
    LoanOffer(Pending, amount, tenure, Round(amount * 1.18 / tenure) as real, SummaryRate, Round(amount * 0.02) as real)
  }

  /** With nothing entered the summary is 50000 over 12 months at 4917 a month and a 1000 fee. */
  lemma SummaryDefaults()
    ensures SummaryOffer(LoanData(None, None)) == LoanOffer(Pending, 50000.0, 12.0, 4917.0, 18.0, 1000.0)
    ensures SummaryOffer(LoanData(Some(NaN), Some(Finite(0.0)))) == SummaryOffer(LoanData(None, None))
  {
    var o := SummaryOffer(LoanData(None, None));
    assert 50000.0 * 1.18 / 12.0 == 4916.0 + 2.0 / 3.0;
    assert o.emi == 4917.0;
    assert o.processingFee == 1000.0;
  }

  /** A value within half of `c / t`, scaled by a positive `t`, is within `t / 2` of `c`. */
  lemma ScaledHalf(c: real, e: real, t: real)
    requires t > 0.0 && c / t - 0.5 < e <= c / t + 0.5
    ensures c - t / 2.0 < e * t <= c + t / 2.0
  {
    ScaledBelow(c, e, t);
    ScaledAbove(c, e, t);
  }

  lemma ScaledAbove(c: real, e: real, t: real)
    requires t > 0.0 && e <= c / t + 0.5
    ensures e * t <= c + t / 2.0
  {
    var x := c / t;
    assert x * t == c;
    MulMonotone(e, x + 0.5, t);
    assert e * t <= (x + 0.5) * t;
    assert (x + 0.5) * t == x * t + 0.5 * t;
  }

  lemma ScaledBelow(c: real, e: real, t: real)
    requires t > 0.0 && c / t - 0.5 < e
    ensures c - t / 2.0 < e * t
  {
    var x := c / t;
    assert x * t == c;
    MulMonotone(x - 0.5, e, t);
    assert (x - 0.5) * t < e * t;
    assert (x - 0.5) * t == x * t - 0.5 * t;
  }

  lemma MulMonotone(a: real, b: real, t: real)
    requires t > 0.0 && a <= b
    ensures a * t <= b * t
    ensures a < b ==> a * t < b * t
  {
    assert (b - a) * t >= 0.0;
  }

  /** Over a positive tenure the card's total payable is within half a rupee per month, plus
      half a rupee for the fee, of 120% of the amount. */
  lemma SummaryTotalNearAmount(d: LoanData)
    requires OrDefault(d.tenure, DefaultTenure) > 0.0
    ensures var o := SummaryOffer(d);
      var total := TotalPayable(PropsOf(o));
      o.amount * 1.2 - (o.tenure + 1.0) / 2.0 < total <= o.amount * 1.2 + (o.tenure + 1.0) / 2.0
  {
    var o := SummaryOffer(d);
    TotalBound(o.amount, o.tenure, o.emi, o.processingFee);
  }

  lemma TotalBound(a: real, t: real, e: real, f: real)
    requires t > 0.0
    requires a * 1.18 / t - 0.5 < e <= a * 1.18 / t + 0.5
    requires a * 0.02 - 0.5 < f <= a * 0.02 + 0.5
    ensures a * 1.2 - (t + 1.0) / 2.0 < e * t + f <= a * 1.2 + (t + 1.0) / 2.0
  {
    ScaledHalf(a * 1.18, e, t);
    assert a * 1.18 + a * 0.02 == a * 1.2;
  }

  datatype ConsentScreen = ConsentScreen(consentGiven: bool, isPlaying: bool)

  datatype ConsentEvent = SetChecked(checked: bool) | PressPlay | PlaybackEnded | PressAccept | PressBack

  /** Where an event leaves the user: still here, accepted, or gone back. */
  datatype Outcome = Stay | Accepted | WentBack

  const InitialScreen: ConsentScreen := ConsentScreen(false, false)

  /** The accept button's `disabled`. */
  predicate AcceptDisabled(s: ConsentScreen) {
    !s.consentGiven
  }

  /** One event: the checkbox stores its checked state; the play button, disabled while
      playing, starts the read-out; accept goes through only with consent. */
  function Step(s: ConsentScreen, e: ConsentEvent): (r: (ConsentScreen, Outcome))
    ensures r.1 == Accepted <==> e == PressAccept && !AcceptDisabled(s)
    ensures r.1 == WentBack <==> e == PressBack
    ensures r.0.consentGiven == (if e.SetChecked? then e.checked else s.consentGiven)
  {
    match e
    case SetChecked(checked) => (s.(consentGiven := checked), Stay)
    case PressPlay => (s.(isPlaying := true), Stay)
    case PlaybackEnded => (s.(isPlaying := false), Stay)
    case PressAccept => if AcceptDisabled(s) then (s, Stay) else (s, Accepted)
    case PressBack => (s, WentBack)
  }

  /** Events up to the first one that leaves the screen, and how it was left. */
  function Leave(s: ConsentScreen, es: seq<ConsentEvent>): Outcome
    decreases |es|
  {
    if es == [] then Stay
    else
      var r := Step(s, es[0]);
      if r.1 != Stay then r.1 else Leave(r.0, es[1..])
  }

  /** Leaving by accept from a screen without consent needs a tick of the checkbox first. */
  lemma {:induction false} AcceptNeedsConsent(s: ConsentScreen, es: seq<ConsentEvent>)
    requires !s.consentGiven
    requires Leave(s, es) == Accepted
    ensures exists i :: 0 <= i < |es| && es[i] == SetChecked(true)
    decreases |es|
  {
    var r := Step(s, es[0]);
    if es[0] == SetChecked(true) {
      assert es[0] == SetChecked(true);
    } else {
      assert !r.0.consentGiven && r.1 == Stay;
      AcceptNeedsConsent(r.0, es[1..]);
      var i :| 0 <= i < |es[1..]| && es[1..][i] == SetChecked(true);
      assert es[i + 1] == SetChecked(true);
    }
  }
}

=== FILE: decision.dfy ===
/** The decision screen: a header per offer status, the offer card unless rejected, and a
    status-dependent pair of bottom actions. */
module Decision {
  import opened OfferCard

  /** `getStatusContent`'s texts. */
  datatype StatusContent = StatusContent(title: string, subtitle: string)

  /** The bottom-bar buttons: accept, decline, call the lender, and back to home (which is
      the screen's `onBack`). */
  datatype Action = AcceptAction | DeclineAction | CallAction | HomeAction

  function StatusContentOf(s: OfferStatus): (c: StatusContent)
    ensures c.title != "" && c.subtitle != ""
  {
    match s
    case Approved => StatusContent("बधाई हो! ऋण मंज़ूर", "आपका ऋण आवेदन स्वीकृत हो गया है")
    case Pending => StatusContent("समीक्षा में है", "आपका आवेदन मैन्युअल समीक्षा में भेजा गया है")
    case Rejected => StatusContent("खुशी नहीं हुई", "इस समय हम आपको ऋण नहीं दे सकते")
  }

  /** The header's back arrow. */
  predicate ShowsBack(s: OfferStatus) {
    s == Rejected
  }

  /** The offer card. */
  predicate ShowsOfferCard(s: OfferStatus) {
    s != Rejected
  }

  /** The bottom bar of each status. */
  function Actions(s: OfferStatus): (r: set<Action>)
    ensures AcceptAction in r <==> s == Approved
    ensures DeclineAction in r <==> s == Approved
    ensures CallAction in r <==> s == Pending
    ensures HomeAction in r <==> s != Approved
    ensures r != {}
  {
    match s
    case Approved => {AcceptAction, DeclineAction}
    case Pending => {CallAction, HomeAction}
    case Rejected => {HomeAction}
  }

  /** Each status has its own title, so the header alone tells them apart. */
  lemma StatusTitlesDistinct(s: OfferStatus, t: OfferStatus)
    ensures StatusContentOf(s).title == StatusContentOf(t).title <==> s == t
  {
    if s != t {
      match s
      case Approved => assert StatusContentOf(s).title[0] == 'ब';
      case Pending => assert StatusContentOf(s).title[0] == 'स';
      case Rejected => assert StatusContentOf(s).title[0] == 'ख';
    }
  }

  /** Exactly one way off a rejected decision (back, by the arrow or the home button); every
      other status shows the offer and no back arrow. */
  lemma VisibilityByStatus(s: OfferStatus)
    ensures ShowsBack(s) <==> !ShowsOfferCard(s)
    ensures ShowsBack(s) <==> Actions(s) == {HomeAction}
  {
  }
}

=== FILE: disbursal.dfy ===
/** The disbursal screen: choose UPI, bank account or cash, fill the method's fields, verify
    once (a fixed-delay mock that always succeeds), then complete. */
module Disbursal {
  import opened Common

  datatype Method = Upi | Bank | Cash

  datatype BankDetails = BankDetails(accountNumber: string, ifscCode: string, accountHolderName: string)

  datatype DisbursalScreen = DisbursalScreen(
    selected: Method,
    upiId: string,
    bank: BankDetails,
    isVerifying: bool,
    isVerified: bool)

  /** User edits, the verify press, and the end of the verification delay. */
  datatype DisbursalEvent =
    | SelectMethod(m: Method)
    | EditUpiId(text: string)
    | EditAccountNumber(text: string)
    | EditIfsc(text: string)
    | EditHolderName(text: string)
    | PressVerify
    | VerificationDone

  /** The buttons in the bottom bar. */
  datatype Action = VerifyAction | BackAction | CompleteAction

  const InitialScreen: DisbursalScreen :=
    DisbursalScreen(Upi, "", BankDetails("", "", ""), false, false)

  /** The verify button's `disabled` expression: the chosen method's fields are incomplete.
      Cash has no fields. */
  predicate VerifyDisabled(s: DisbursalScreen) {
    || (s.selected == Upi && s.upiId == "")
    || (s.selected == Bank && (s.bank.accountNumber == "" || s.bank.ifscCode == "" || s.bank.accountHolderName == ""))
  }

  /** The bottom bar: before verification verify and back, afterwards only complete. */
  function Actions(s: DisbursalScreen): (r: set<Action>)
    ensures CompleteAction in r <==> s.isVerified
    ensures VerifyAction in r <==> !s.isVerified
    ensures BackAction in r <==> !s.isVerified
  {
    if s.isVerified then {CompleteAction} else {VerifyAction, BackAction}
  }

  /** A press reaches the verify handler only when the button is shown and neither
      disabled nor loading. */
  predicate CanPressVerify(s: DisbursalScreen) {
    !s.isVerified && !VerifyDisabled(s) && !s.isVerifying
  }

  /** One event. Switching method keeps every entered field; the IFSC code is stored upper
      case; the verify press is ignored while the button cannot be pressed; the delay ends
      only a started verification. */
  function Step(s: DisbursalScreen, e: DisbursalEvent): (r: DisbursalScreen)
    ensures r.isVerified == (s.isVerified || (e.VerificationDone? && s.isVerifying))
    ensures e.SelectMethod? ==> r == s.(selected := e.m)
    ensures e.EditUpiId? ==> r == s.(upiId := e.text)
    ensures e.EditAccountNumber? ==> r == s.(bank := s.bank.(accountNumber := e.text))
    ensures e.EditIfsc? ==> r == s.(bank := s.bank.(ifscCode := ToUpper(e.text)))
    ensures e.EditHolderName? ==> r == s.(bank := s.bank.(accountHolderName := e.text))
    ensures !e.SelectMethod? ==> r.selected == s.selected
    ensures !e.EditUpiId? ==> r.upiId == s.upiId
    ensures !e.EditAccountNumber? ==> r.bank.accountNumber == s.bank.accountNumber
    ensures !e.EditIfsc? ==> r.bank.ifscCode == s.bank.ifscCode
    ensures !e.EditHolderName? ==> r.bank.accountHolderName == s.bank.accountHolderName
    ensures e.PressVerify? && CanPressVerify(s) ==> r.isVerifying
    ensures e.VerificationDone? && s.isVerifying ==> r.isVerified && !r.isVerifying
  {
    match e
    case SelectMethod(m) => s.(selected := m)
    case EditUpiId(text) => s.(upiId := text)
    case EditAccountNumber(text) => s.(bank := s.bank.(accountNumber := text))
    case EditIfsc(text) => s.(bank := s.bank.(ifscCode := ToUpper(text)))
    case EditHolderName(text) => s.(bank := s.bank.(accountHolderName := text))
    case PressVerify => if CanPressVerify(s) then s.(isVerifying := true) else s
    case VerificationDone => if s.isVerifying then s.(isVerified := true, isVerifying := false) else s
  }

  function Run(s: DisbursalScreen, es: seq<DisbursalEvent>): DisbursalScreen
    decreases |es|
  {
    if es == [] then s else Run(Step(s, es[0]), es[1..])
  }

  /** What holds on every screen reached from the initial one: the stored IFSC code has no
      lower-case Latin letter, and a verification in flight is one not yet finished. */
  predicate Consistent(s: DisbursalScreen) {
    NoLowerLatin(s.bank.ifscCode) && !(s.isVerifying && s.isVerified)
  }

  lemma StepKeepsConsistent(s: DisbursalScreen, e: DisbursalEvent)
    requires Consistent(s)
    ensures Consistent(Step(s, e))
  {
    if e.EditIfsc? {
      ToUpperNoLower(e.text);
    }
  }

  /** Over any run: the screen stays consistent, and once verified it stays verified, so
      complete stays the only action offered. */
  lemma {:induction false} RunInvariants(s: DisbursalScreen, es: seq<DisbursalEvent>)
    requires Consistent(s)
    ensures Consistent(Run(s, es))
    ensures s.isVerified ==> Run(s, es).isVerified && Actions(Run(s, es)) == {CompleteAction}
    decreases |es|
  {
    if es != [] {
      StepKeepsConsistent(s, es[0]);
      RunInvariants(Step(s, es[0]), es[1..]);
    }
  }

  /** Complete is never offered without a verification press that went through. */
  lemma {:induction false} CompleteNeedsVerification(s: DisbursalScreen, es: seq<DisbursalEvent>)
    requires !s.isVerified && !s.isVerifying
    requires CompleteAction in Actions(Run(s, es))
    ensures exists i :: 0 <= i < |es| && es[i] == PressVerify
    decreases |es|
  {
    var t := Step(s, es[0]);
    if es[0] == PressVerify {
      assert es[0] == PressVerify;
    } else {
      assert !t.isVerified && !t.isVerifying;
      CompleteNeedsVerification(t, es[1..]);
      var i :| 0 <= i < |es[1..]| && es[1..][i] == PressVerify;
      assert es[i + 1] == PressVerify;
    }
  }

  lemma InitialConsistent()
    ensures Consistent(InitialScreen)
    ensures Actions(InitialScreen) == {VerifyAction, BackAction}
    ensures VerifyDisabled(InitialScreen)
  {
  }

  /** Cash never needs a field; bank needs all three of its fields. */
  lemma VerifyDisabledByMethod(s: DisbursalScreen)
    ensures s.selected == Cash ==> !VerifyDisabled(s)
    ensures s.selected == Upi ==> (VerifyDisabled(s) <==> s.upiId == "")
    ensures s.selected == Bank ==> (!VerifyDisabled(s) <==>
      s.bank.accountNumber != "" && s.bank.ifscCode != "" && s.bank.accountHolderName != "")
  {
  }
}

=== FILE: help.dfy ===
/** The help screen: contact, FAQ and chat tabs; a case-insensitive search over six fixed
    FAQs; an accordion that expands one FAQ at a time; and a "schedule a call" flag. */
module Help {
  import opened Common

  datatype Faq = Faq(question: string, answer: string)

  const Faqs: seq<Faq> := [
    Faq("ऋण कैसे मिलता है?", "KYC पूरी करें, आवेदन दें, 2 मिनट में अप्रूवल मिलेगा और 24 घंटे में पैसा खाते में आ जाएगा।"),
    Faq("EMI कैसे भरें?", "UPI, डेबिट कार्ड, या बैंक ट्रांसफर से भुगतान कर सकते हैं। Auto Pay भी सेट कर सकते हैं।"),
    Faq("देर से भुगतान करने पर क्या होगा?", "देर से भुगतान पर ₹500 जुर्माना लगेगा और आपका क्रेडिट स्कोर प्रभावित हो सकता है।"),
    Faq("ब्याज दर कितनी है?", "18% से 36% वार्षिक, आपके क्रेडिट स्कोर के आधार पर निर्धारित होती है।"),
    Faq("पहले से चुकता कर सकते हैं?", "हां, बिना किसी अतिरिक्त शुल्क के आप कभी भी पूरा ऋण चुकता कर सकते हैं।"),
    Faq("कौन से दस्तावेज़ चाहिए?", "सिर्फ आधार कार्ड और सेल्फी। कोई अन्य कागजात की जरूरत नहीं।")
  ]

  /** The search predicate: the lower-cased query occurs in the lower-cased question or
      answer. */
  predicate Matches(f: Faq, query: string) {
    Contains(ToLower(f.question), ToLower(query)) || Contains(ToLower(f.answer), ToLower(query))
  }

  /** The positions, from `from` on, of the FAQs that match, in increasing order. */
  function KeptFrom(faqs: seq<Faq>, query: string, from: nat): (r: seq<nat>)
    requires from <= |faqs|
    ensures forall k :: 0 <= k < |r| ==> from <= r[k] < |faqs| && Matches(faqs[r[k]], query)
    ensures forall k, l :: 0 <= k < l < |r| ==> r[k] < r[l]
    ensures forall j :: from <= j < |faqs| && Matches(faqs[j], query) ==> j in r
    decreases |faqs| - from
  {
    if from == |faqs| then []
    else (if Matches(faqs[from], query) then [from] else []) + KeptFrom(faqs, query, from + 1)
  }

  /** The positions of the FAQs `filter` keeps. */
  function Kept(faqs: seq<Faq>, query: string): seq<nat> {
    KeptFrom(faqs, query, 0)
  }

  /** `faqs.filter(...)`: the matching FAQs in their original order. */
  function Filtered(faqs: seq<Faq>, query: string): (r: seq<Faq>)
    ensures |r| == |Kept(faqs, query)|
    ensures forall k :: 0 <= k < |r| ==> r[k] == faqs[Kept(faqs, query)[k]]
  {
    var kept := Kept(faqs, query);
    seq(|kept|, k requires 0 <= k < |kept| => faqs[kept[k]])
  }

  /** The filtered list is the subsequence of the matching FAQs: every entry comes from the
      list, entries keep their relative order, and a FAQ is kept exactly when it matches. */
  lemma FilterIsOrderedSelection(faqs: seq<Faq>, query: string)
    ensures forall k, l :: 0 <= k < l < |Kept(faqs, query)| ==> Kept(faqs, query)[k] < Kept(faqs, query)[l]
    ensures forall j :: 0 <= j < |faqs| ==> (j in Kept(faqs, query) <==> Matches(faqs[j], query))
    ensures forall f :: f in Filtered(faqs, query) ==> f in faqs && Matches(f, query)
  {
    var kept := Kept(faqs, query);
    forall f | f in Filtered(faqs, query)
      ensures f in faqs && Matches(f, query)
    {
      var k :| 0 <= k < |Filtered(faqs, query)| && Filtered(faqs, query)[k] == f;
      assert f == faqs[kept[k]];
    }
  }

  /** Every FAQ matches the empty query. */
  lemma MatchesEmpty(f: Faq)
    ensures Matches(f, "")
  {
    assert ToLower("") == "";
    assert "" <= ToLower(f.question);
  }

  /** A matching FAQ at `from` heads the positions kept from `from`. */
  lemma KeptFromMatching(faqs: seq<Faq>, query: string, from: nat)
    requires from < |faqs| && Matches(faqs[from], query)
    ensures KeptFrom(faqs, query, from) == [from] + KeptFrom(faqs, query, from + 1)
  {
  }

  /** All positions from `from` on are kept by the empty query. */
  lemma {:induction false} EmptyQueryKeepsFrom(faqs: seq<Faq>, from: nat)
    requires from <= |faqs|
    ensures |KeptFrom(faqs, "", from)| == |faqs| - from
    ensures forall k :: 0 <= k < |faqs| - from ==> KeptFrom(faqs, "", from)[k] == from + k
    decreases |faqs| - from
  {
    if from < |faqs| {
      MatchesEmpty(faqs[from]);
      KeptFromMatching(faqs, "", from);
      EmptyQueryKeepsFrom(faqs, from + 1);
      var rest := KeptFrom(faqs, "", from + 1);
      forall k | 0 <= k < |faqs| - from
        ensures KeptFrom(faqs, "", from)[k] == from + k
      {
        if k > 0 {
          assert ([from] + rest)[k] == rest[k - 1];
        }
      }
    }
  }

  /** An empty search box shows every FAQ, in order. */
  lemma EmptyQueryKeepsAll(faqs: seq<Faq>)
    ensures Filtered(faqs, "") == faqs
  {
    EmptyQueryKeepsFrom(faqs, 0);
  }

  datatype Tab = ContactTab | FaqTab | ChatTab

  /** `expanded` is a position in the currently filtered list, as the screen keys it. */
  datatype HelpScreen = HelpScreen(tab: Tab, expanded: Option<nat>, query: string, scheduledCall: bool)

  datatype HelpEvent = SelectTab(t: Tab) | ClickFaq(position: nat) | EditQuery(text: string) | ScheduleCall

  const InitialScreen: HelpScreen := HelpScreen(ContactTab, None, "", false)

  /** The accordion's click: the clicked entry closes if it was open, otherwise it opens
      (closing any other). */
  function Toggle(expanded: Option<nat>, k: nat): (r: Option<nat>)
    ensures r == Some(k) <==> expanded != Some(k)
    ensures r != Some(k) ==> r == None
  {
    if expanded == Some(k) then None else Some(k)
  }

  /** Clicking the same entry twice restores the earlier state exactly when that state had
      nothing open or had this entry open; with another entry open it ends all closed. */
  lemma ToggleTwice(expanded: Option<nat>, k: nat)
    ensures Toggle(Toggle(expanded, k), k) == expanded <==> expanded == None || expanded == Some(k)
    ensures expanded.Some? && expanded != Some(k) ==> Toggle(Toggle(expanded, k), k) == None
  {
  }

  /** One event. A tab button switches the tab and nothing else; a click reaches only an
      entry that is shown (FAQ tab, a position of the filtered list) and is otherwise lost;
      editing the query keeps the expanded position as it is; scheduling a call sets only its
      flag, from the contact tab where its button is. */
  function Step(s: HelpScreen, e: HelpEvent): (r: HelpScreen)
    ensures r.scheduledCall == (s.scheduledCall || (e == ScheduleCall && s.tab == ContactTab))
    ensures e.EditQuery? ==> r == s.(query := e.text)
    ensures e.ClickFaq? && s.tab == FaqTab && e.position < |Filtered(Faqs, s.query)| ==>
      r == s.(expanded := Toggle(s.expanded, e.position))
    ensures e.ClickFaq? && !(s.tab == FaqTab && e.position < |Filtered(Faqs, s.query)|) ==> r == s
    ensures e.SelectTab? ==> r == s.(tab := e.t)
    ensures e == ScheduleCall ==> r == s.(scheduledCall := s.scheduledCall || s.tab == ContactTab)
  {
    match e
    case SelectTab(t) => s.(tab := t)
    case ClickFaq(k) =>
      if s.tab == FaqTab && k < |Filtered(Faqs, s.query)| then s.(expanded := Toggle(s.expanded, k)) else s
    case EditQuery(text) => s.(query := text)
    case ScheduleCall => if s.tab == ContactTab then s.(scheduledCall := true) else s
  }

  function Run(s: HelpScreen, es: seq<HelpEvent>): HelpScreen
    decreases |es|
  {
    if es == [] then s else Run(Step(s, es[0]), es[1..])
  }

  /** Once a call is scheduled no event unschedules it. */
  lemma {:induction false} ScheduledCallLatches(s: HelpScreen, es: seq<HelpEvent>)
    requires s.scheduledCall
    ensures Run(s, es).scheduledCall
    decreases |es|
  {
    if es != [] {
      ScheduledCallLatches(Step(s, es[0]), es[1..]);
    }
  }

  /** The FAQ shown open: the entry at the expanded position of the current filtered list. */
  function ExpandedFaq(s: HelpScreen): (f: Option<Faq>)
    ensures f.Some? ==> f.value in Filtered(Faqs, s.query) && Matches(f.value, s.query)
    ensures f.Some? <==> s.expanded.Some? && s.expanded.value < |Filtered(Faqs, s.query)|
  {
    FilterIsOrderedSelection(Faqs, s.query);
    var shown := Filtered(Faqs, s.query);
    if s.expanded.Some? && s.expanded.value < |shown| then Some(shown[s.expanded.value]) else None
  }

  /** The no-results message. */
  predicate ShowsNoResults(s: HelpScreen) {
    s.tab == FaqTab && |Filtered(Faqs, s.query)| == 0
  }

  /** On the FAQ tab the no-results message shows exactly when no FAQ matches the query,
      and so never for an empty query. */
  lemma NoResultsIffNoMatch(s: HelpScreen)
    requires s.tab == FaqTab
    ensures ShowsNoResults(s) <==> forall j :: 0 <= j < |Faqs| ==> !Matches(Faqs[j], s.query)
    ensures s.query == "" ==> !ShowsNoResults(s)
  {
    EmptyQueryKeepsAll(Faqs);
    FilterIsOrderedSelection(Faqs, s.query);
    var kept := Kept(Faqs, s.query);
    if !ShowsNoResults(s) {
      assert |kept| > 0;
      assert kept[0] in kept;
    }
  }
}

=== FILE: js_number.dfy ===
/** The slice of JavaScript number semantics the screens rely on: `Number(text)` on
    form input, the `x || default` idiom, and `Math.round`. Numbers are exact rationals. */
module JsNumbers {
  import opened Common

  /** A JavaScript number: NaN or a finite value. */
  datatype JsNumber = NaN | Finite(value: real)

  /** JavaScript truthiness of a number: everything except 0 and NaN. */
  predicate Truthy(n: JsNumber) {
    n.Finite? && n.value != 0.0
  }

  /** `x || d` where `x` is an optional number: `undefined`, 0 and NaN all fall back to `d`. */
  function OrDefault(x: Option<JsNumber>, d: real): real {
    if x.Some? && Truthy(x.value) then x.value.value else d
  }

  lemma OrDefaultNonZero(x: Option<JsNumber>, d: real)
    requires d != 0.0
    ensures OrDefault(x, d) != 0.0
    ensures x.Some? && x.value.Finite? && x.value.value != 0.0 ==> OrDefault(x, d) == x.value.value
    ensures x.None? || x.value == NaN || x.value == Finite(0.0) ==> OrDefault(x, d) == d
  {
  }

  /** `Math.round`: the integer nearest to `x`, halves rounded up. */
  function Round(x: real): (r: int)
    ensures x - 0.5 < r as real <= x + 0.5
  {
    (x + 0.5).Floor
  }

  function DigitValue(c: char): (d: nat)
    requires IsDigit(c)
    ensures d < 10
  {
    c as int - '0' as int
  }

  function DigitChar(d: nat): (c: char)
    requires d < 10
    ensures IsDigit(c) && DigitValue(c) == d
  {
    ('0' as int + d) as char
  }

  /** The value of a string of decimal digits, most significant first. */
  function DigitsValue(ds: string): nat
    requires AllDigits(ds)
  {
    if ds == [] then 0 else DigitsValue(ds[..|ds| - 1]) * 10 + DigitValue(ds[|ds| - 1])
  }

  function Pow10(k: nat): (p: nat)
    ensures p >= 1
  {
    if k == 0 then 1 else 10 * Pow10(k - 1)
  }

  /** Position of the first `c` in `s`. */
  function IndexOf(s: string, c: char): (r: Option<nat>)
    ensures r.None? ==> forall i :: 0 <= i < |s| ==> s[i] != c
    ensures r.Some? ==> r.value < |s| && s[r.value] == c && forall i :: 0 <= i < r.value ==> s[i] != c
  {
    if s == [] then None
    else if s[0] == c then Some(0)
    else match IndexOf(s[1..], c)
      case None => None
      case Some(k) => Some(k + 1)
  }

  /** Position of the first exponent mark (`e` or `E`) in `s`. */
  function IndexOfExponent(s: string): (r: Option<nat>)
    ensures r.None? ==> forall i :: 0 <= i < |s| ==> s[i] != 'e' && s[i] != 'E'
    ensures r.Some? ==> r.value < |s| && (s[r.value] == 'e' || s[r.value] == 'E')
    ensures r.Some? ==> forall i :: 0 <= i < r.value ==> s[i] != 'e' && s[i] != 'E'
  {
    if s == [] then None
    else if s[0] == 'e' || s[0] == 'E' then Some(0)
    else match IndexOfExponent(s[1..])
      case None => None
      case Some(k) => Some(k + 1)
  }

  /** An unsigned decimal mantissa: digits with at most one point and at least one digit. */
  function ParseMantissa(b: string): Option<real> {
    match IndexOf(b, '.')
    case None =>
      if b != [] && AllDigits(b) then Some(DigitsValue(b) as real) else None
    case Some(k) =>
      var whole, frac := b[..k], b[k + 1..];
      if AllDigits(whole) && AllDigits(frac) && |whole| + |frac| > 0
      then Some(DigitsValue(whole) as real + DigitsValue(frac) as real / Pow10(|frac|) as real)
      else None
  }

  /** The exponent after the mark: an optionally signed, non-empty run of digits. */
  function ParseExponent(x: string): (r: Option<int>)
    ensures x == [] ==> r.None?
    ensures x != [] && AllDigits(x) ==> r == Some(DigitsValue(x) as int)
  {
    if x == [] then None
    else
      var digits := if x[0] == '-' || x[0] == '+' then x[1..] else x;
      if digits != [] && AllDigits(digits) then
        Some(if x[0] == '-' then -(DigitsValue(digits) as int) else DigitsValue(digits) as int)
      else None
  }

  /** `m` times ten to the power `e`. */
  function Scale(m: real, e: int): (r: real)
    ensures e >= 0 ==> r == m * Pow10(e) as real
    ensures e < 0 ==> r * Pow10(-e) as real == m
  {
    if e >= 0 then m * Pow10(e) as real else m / Pow10(-e) as real
  }

  /** An unsigned decimal literal: a mantissa, optionally followed by an exponent part. */
  function ParseUnsigned(b: string): Option<real> {
    match IndexOfExponent(b)
    case None => ParseMantissa(b)
    case Some(k) =>
      match (ParseMantissa(b[..k]), ParseExponent(b[k + 1..]))
      case (Some(m), Some(e)) => Some(Scale(m, e))
      case _ => None
  }

  /** `Number(text)` for the text of a number field: the empty string is 0, an optionally
      signed decimal literal (with optional exponent) is its value, anything else is NaN. */
  function ToNumber(s: string): JsNumber {
    if s == [] then Finite(0.0)
    else
      var negative := s[0] == '-';
      var body := if s[0] == '-' || s[0] == '+' then s[1..] else s;
      match ParseUnsigned(body)
      case None => NaN
      case Some(v) => Finite(if negative then -v else v)
  }

  /** A mantissa free of exponent marks, a mark, and an exponent: the literal is the
      mantissa scaled by the exponent, and NaN-bound when either part is malformed. */
  lemma {:induction false} ExponentSplit(m: string, mark: char, x: string)
    requires mark == 'e' || mark == 'E'
    requires forall i :: 0 <= i < |m| ==> m[i] != 'e' && m[i] != 'E'
    ensures ParseMantissa(m).Some? && ParseExponent(x).Some? ==>
      ParseUnsigned(m + [mark] + x) == Some(Scale(ParseMantissa(m).value, ParseExponent(x).value))
    ensures ParseMantissa(m).None? || ParseExponent(x).None? ==> ParseUnsigned(m + [mark] + x).None?
  {
    var b := m + [mark] + x;
    IndexOfExponentAt(m, mark, x);
    assert b[..|m|] == m && b[|m| + 1..] == x;
  }

  lemma {:induction false} IndexOfExponentAt(m: string, mark: char, x: string)
    requires mark == 'e' || mark == 'E'
    requires forall i :: 0 <= i < |m| ==> m[i] != 'e' && m[i] != 'E'
    ensures IndexOfExponent(m + [mark] + x) == Some(|m|)
  {
    if m != [] {
      assert (m + [mark] + x)[1..] == m[1..] + [mark] + x;
      IndexOfExponentAt(m[1..], mark, x);
    }
  }

  /** Exponent notation is read as the power of ten it denotes. */
  lemma ExponentMillion()
    ensures ToNumber("1e6") == Finite(1000000.0)
  {
    assert ParseMantissa("1") == Some(1.0) by { assert DigitsValue("1") == 1; }
    assert ParseExponent("6") == Some(6) by { assert DigitsValue("6") == 6; }
    assert Pow10(6) == 1000000;
    ExponentSplit("1", 'e', "6");
    assert "1" + ['e'] + "6" == "1e6";
    assert ParseUnsigned("1e6") == Some(1000000.0);
  }

  lemma ExponentWithPoint()
    ensures ToNumber("2.5E3") == Finite(2500.0)
  {
    assert ParseMantissa("2.5") == Some(2.5) by {
      assert IndexOf("2.5", '.') == Some(1);
      assert "2.5"[..1] == "2" && "2.5"[2..] == "5";
      assert DigitsValue("2") == 2 && DigitsValue("5") == 5;
    }
    assert ParseExponent("3") == Some(3) by { assert DigitsValue("3") == 3; }
    assert Pow10(3) == 1000;
    ExponentSplit("2.5", 'E', "3");
    assert "2.5" + ['E'] + "3" == "2.5E3";
    assert ParseUnsigned("2.5E3") == Some(2500.0);
  }

  lemma ExponentNegative()
    ensures ToNumber("5e-1") == Finite(0.5)
  {
    assert ParseMantissa("5") == Some(5.0) by { assert DigitsValue("5") == 5; }
    assert ParseExponent("-1") == Some(-1) by {
      assert "-1"[1..] == "1";
      assert DigitsValue("1") == 1;
    }
    assert Pow10(1) == 10;
    ExponentSplit("5", 'e', "-1");
    assert "5" + ['e'] + "-1" == "5e-1";
    assert ParseUnsigned("5e-1") == Some(0.5);
  }

  /** A mark with no exponent digits makes the text NaN. */
  lemma ExponentMissing()
    ensures ToNumber("1e") == NaN
  {
    ExponentSplit("1", 'e', "");
    assert "1" + ['e'] + "" == "1e";
  }

  /** The decimal spelling of `n`, without leading zeros. */
  function NatToDecimal(n: nat): (s: string)
    ensures s != [] && AllDigits(s)
    ensures forall i :: 0 <= i < |s| ==> s[i] != '.'
  {
    if n < 10 then [DigitChar(n)] else NatToDecimal(n / 10) + [DigitChar(n % 10)]
  }

  lemma {:induction false} DigitsValueOfDecimal(n: nat)
    ensures DigitsValue(NatToDecimal(n)) == n
  {
    var s := NatToDecimal(n);
    if n >= 10 {
      DigitsValueOfDecimal(n / 10);
      assert s[..|s| - 1] == NatToDecimal(n / 10);
    }
  }

  /** Round trip: `Number` reads back the decimal spelling of every natural number. */
  lemma {:induction false} ToNumberOfDecimal(n: nat)
    ensures ToNumber(NatToDecimal(n)) == Finite(n as real)
  {
    var s := NatToDecimal(n);
    assert IndexOf(s, '.').None?;
    assert IndexOfExponent(s).None?;
    assert s[0] != '-' && s[0] != '+' by { assert IsDigit(s[0]); }
    DigitsValueOfDecimal(n);
  }
}

=== FILE: kyc.dfy ===
/** The KYC capture screen: an identity-card photo, then a selfie, then a summary that hands
    both photos on. Each photo is taken by the document camera, which shows its capture
    button while it has no image and its retake/accept buttons once it has one. */
module Kyc {
  import opened Common

  /** The stand-in image every capture produces. */
  const MockImage: string := "data:image/jpeg;base64,/9j/4AAQSkZJRgABAQAAAQ..."

  const StepLabels: seq<string> := ["ID Photo", "Selfie", "Complete"]

  const IdStep: nat := 0
  const SelfieStep: nat := 1
  const DoneStep: nat := 2

  datatype KycScreen = KycScreen(currentStep: nat, idPhoto: string, selfiePhoto: string)

  /** `Capture` is the end of the camera's capture delay; `Retake` is the retake button,
      which the screen wires to nothing. */
  datatype KycEvent = Capture | Retake | Accept

  const InitialScreen: KycScreen := KycScreen(IdStep, "", "")

  /** The image shown by the camera on the current step ("" at the summary). */
  function ShownImage(s: KycScreen): string {
    if s.currentStep == IdStep then s.idPhoto
    else if s.currentStep == SelfieStep then s.selfiePhoto
    else ""
  }

  /** One event on the camera of the current step. A capture fills only that step's photo
      and only while it is empty; accept is offered only with an image and moves to the
      next step; retake does nothing. */
  function Step(s: KycScreen, e: KycEvent): (r: KycScreen)
    ensures r.currentStep != s.currentStep ==>
      e == Accept && ShownImage(s) != "" && r.currentStep == s.currentStep + 1 && s.currentStep < DoneStep
    ensures r.idPhoto != s.idPhoto ==> e == Capture && s.currentStep == IdStep && s.idPhoto == "" && r.idPhoto == MockImage
    ensures r.selfiePhoto != s.selfiePhoto ==>
      e == Capture && s.currentStep == SelfieStep && s.selfiePhoto == "" && r.selfiePhoto == MockImage
    ensures e == Retake ==> r == s
    ensures e == Accept && s.currentStep < DoneStep && ShownImage(s) != "" ==> r.currentStep == s.currentStep + 1
    ensures e == Capture && s.currentStep == IdStep && s.idPhoto == "" ==> r.idPhoto == MockImage
    ensures e == Capture && s.currentStep == SelfieStep && s.selfiePhoto == "" ==> r.selfiePhoto == MockImage
  {
    match e
    case Capture =>
      if s.currentStep == IdStep && s.idPhoto == "" then s.(idPhoto := MockImage)
      else if s.currentStep == SelfieStep && s.selfiePhoto == "" then s.(selfiePhoto := MockImage)
      else s
    case Retake => s
    case Accept =>
      if s.currentStep == IdStep && s.idPhoto != "" then s.(currentStep := SelfieStep)
      else if s.currentStep == SelfieStep && s.selfiePhoto != "" then s.(currentStep := DoneStep)
      else s
  }

  function Run(s: KycScreen, es: seq<KycEvent>): KycScreen
    decreases |es|
  {
    if es == [] then s else Run(Step(s, es[0]), es[1..])
  }

  /** The summary's continue button: the two photos exactly as stored, and only there. */
  function Complete(s: KycScreen): (out: Option<(string, string)>)
    ensures out.Some? <==> s.currentStep == DoneStep
    ensures out.Some? ==> out.value.0 == s.idPhoto && out.value.1 == s.selfiePhoto
  {
    if s.currentStep == DoneStep then Some((s.idPhoto, s.selfiePhoto)) else None
  }

  /** The progress handed to the progress bar: `currentStep / (steps.length - 1) * 100`. */
  function Progress(s: KycScreen): (p: real)
    requires s.currentStep <= DoneStep
    ensures p == 0.0 || p == 50.0 || p == 100.0
    ensures p == 100.0 <==> s.currentStep == DoneStep
  {
    s.currentStep as real / (|StepLabels| - 1) as real * 100.0
  }

  /** What every reachable screen satisfies: a step of the three, and every step passed
      has its photo. */
  predicate WellFormed(s: KycScreen) {
    && s.currentStep <= DoneStep
    && (s.currentStep >= SelfieStep ==> s.idPhoto != "")
    && (s.currentStep == DoneStep ==> s.selfiePhoto != "")
  }

  lemma {:induction false} RunWellFormed(s: KycScreen, es: seq<KycEvent>)
    requires WellFormed(s)
    ensures WellFormed(Run(s, es))
    ensures Run(s, es).currentStep >= s.currentStep
    decreases |es|
  {
    if es != [] {
      RunWellFormed(Step(s, es[0]), es[1..]);
    }
  }

  /** Whatever the user does, the photos handed on are both non-empty. */
  lemma CompletedPhotosPresent(es: seq<KycEvent>)
    ensures var out := Complete(Run(InitialScreen, es));
      out.Some? ==> out.value.0 != "" && out.value.1 != ""
  {
    RunWellFormed(InitialScreen, es);
  }

  /** Capture, accept, capture, accept reaches the summary with both stand-in images. */
  lemma ShortestPath()
    ensures Run(InitialScreen, [Capture, Accept, Capture, Accept]) == KycScreen(DoneStep, MockImage, MockImage)
    ensures Run(InitialScreen, [Accept, Capture]) == KycScreen(IdStep, MockImage, "")
  {
  }
}

=== FILE: manual_form.dfy ===
/** The typed intake form: four text fields, the validator that fills the error map, and
    the submit handler that hands numeric amount and tenure to the app. */
module ManualForm {
  import opened Common
  import opened JsNumbers

  /** The seven purpose buttons, in display order. */
  const Purposes: seq<string> := [
    "घर की मरम्मत",
    "व्यापार",
    "शिक्षा",
    "चिकित्सा",
    "शादी-विवाह",
    "कृषि",
    "अन्य"
  ]

  /** The values behind the five tenure buttons, as the form stores them. */
  const TenureOptions: seq<string> := ["3", "6", "12", "18", "24"]

  /** The same tenures as month counts. */
  const TenureMonths: seq<nat> := [3, 6, 12, 18, 24]

  const MinAmount: real := 1000.0
  const MaxAmount: real := 200000.0
  const MobileLength: nat := 10

  datatype FormData = FormData(amount: string, tenure: string, purpose: string, mobileNumber: string)

  datatype Field = AmountField | TenureField | PurposeField | MobileField

  datatype FieldError = AmountTooLow | AmountTooHigh | TenureMissing | PurposeMissing | MobileInvalid

  datatype FormScreen = FormScreen(data: FormData, errors: map<Field, FieldError>)

  /** What `onComplete` receives: amount and tenure converted with `Number`. */
  datatype Submission = Submission(amount: JsNumber, tenure: JsNumber, purpose: string, mobileNumber: string)

  /** The user's edits: typing in a text field or pressing one of the option buttons. */
  datatype FormEvent =
    | EditAmount(text: string)
    | PickTenure(tenureIndex: nat)
    | PickPurpose(purposeIndex: nat)
    | EditMobile(text: string)

  const InitialScreen: FormScreen := FormScreen(FormData("", "", "", ""), map[])

  /** The amount check: a value above the maximum overrides the minimum message. NaN
      compares false both ways, so a non-numeric amount raises nothing. */
  function AmountError(amount: string): Option<FieldError> {
    var n := ToNumber(amount);
    if n.Finite? && n.value > MaxAmount then Some(AmountTooHigh)
    else if amount == "" || (n.Finite? && n.value < MinAmount) then Some(AmountTooLow)
    else None
  }

  /** The error map built by the validator, one entry per failing field. */
  function Validate(d: FormData): (errors: map<Field, FieldError>)
    ensures AmountField in errors <==> AmountError(d.amount).Some?
    ensures AmountField in errors ==> errors[AmountField] == AmountError(d.amount).value
    ensures TenureField in errors <==> d.tenure == ""
    ensures PurposeField in errors <==> d.purpose == ""
    ensures MobileField in errors <==> |d.mobileNumber| != MobileLength
    ensures errors == map[] <==>
      AmountError(d.amount).None? && d.tenure != "" && d.purpose != "" && |d.mobileNumber| == MobileLength
  {
    var a := match AmountError(d.amount)
      case Some(e) => map[AmountField := e]
      case None => map[];
    var t := if d.tenure == "" then a[TenureField := TenureMissing] else a;
    var p := if d.purpose == "" then t[PurposeField := PurposeMissing] else t;
    var m := if d.mobileNumber == "" || |d.mobileNumber| != MobileLength then p[MobileField := MobileInvalid] else p;
    assert AmountField in m ==> m[AmountField] in {AmountTooLow, AmountTooHigh};
    m
  }

  /** The submit button: the errors are replaced by a fresh validation, the entered data is
      kept as it is, and the form is handed on only when no field failed. */
  function Submit(s: FormScreen): (r: (FormScreen, Option<Submission>))
    ensures r.0.data == s.data
    ensures r.0.errors == Validate(s.data)
    ensures r.1.Some? <==> r.0.errors == map[]
    ensures r.1.Some? ==> r.1.value.purpose == s.data.purpose && r.1.value.mobileNumber == s.data.mobileNumber
    ensures r.1.Some? ==> r.1.value.amount == ToNumber(s.data.amount) && r.1.value.tenure == ToNumber(s.data.tenure)
  {
    var errors := Validate(s.data);
    var out := if errors == map[] then
      Some(Submission(ToNumber(s.data.amount), ToNumber(s.data.tenure), s.data.purpose, s.data.mobileNumber))
    else None;
    (FormScreen(s.data, errors), out)
  }

  /** One edit. Button indexes outside the lists name no button and change nothing; the
      mobile field keeps only the digits of what was typed. */
  function Apply(s: FormScreen, e: FormEvent): (r: FormScreen)
    ensures r.errors == s.errors
    ensures e.EditAmount? ==> r.data.amount == e.text
    ensures e.PickTenure? && e.tenureIndex < |TenureOptions| ==> r.data.tenure == TenureOptions[e.tenureIndex]
    ensures e.PickPurpose? && e.purposeIndex < |Purposes| ==> r.data.purpose == Purposes[e.purposeIndex]
    ensures e.EditMobile? ==> r.data.mobileNumber == KeepDigits(e.text)
    ensures !e.EditAmount? ==> r.data.amount == s.data.amount
    ensures !(e.PickTenure? && e.tenureIndex < |TenureOptions|) ==> r.data.tenure == s.data.tenure
    ensures !(e.PickPurpose? && e.purposeIndex < |Purposes|) ==> r.data.purpose == s.data.purpose
    ensures !e.EditMobile? ==> r.data.mobileNumber == s.data.mobileNumber
  {
    var d := s.data;
    match e
    case EditAmount(text) => FormScreen(d.(amount := text), s.errors)
    case PickTenure(i) =>
      if i < |TenureOptions| then FormScreen(d.(tenure := TenureOptions[i]), s.errors) else s
    case PickPurpose(i) =>
      if i < |Purposes| then FormScreen(d.(purpose := Purposes[i]), s.errors) else s
    case EditMobile(text) => FormScreen(d.(mobileNumber := KeepDigits(text)), s.errors)
  }

  /** What every reachable form satisfies: tenure and purpose are empty or one of the
      offered options, and the mobile number holds only digits. */
  predicate WellFormed(d: FormData) {
    && (d.tenure == "" || d.tenure in TenureOptions)
    && (d.purpose == "" || d.purpose in Purposes)
    && AllDigits(d.mobileNumber)
  }

  lemma InitialWellFormed()
    ensures WellFormed(InitialScreen.data)
  {
  }

  /** Every edit keeps the form well formed and changes only the field it targets. */
  lemma ApplyPreservesWellFormed(s: FormScreen, e: FormEvent)
    requires WellFormed(s.data)
    ensures WellFormed(Apply(s, e).data)
    ensures !e.EditAmount? ==> Apply(s, e).data.amount == s.data.amount
    ensures !e.PickTenure? ==> Apply(s, e).data.tenure == s.data.tenure
    ensures !e.PickPurpose? ==> Apply(s, e).data.purpose == s.data.purpose
    ensures !e.EditMobile? ==> Apply(s, e).data.mobileNumber == s.data.mobileNumber
  {
  }

  /** The form reached by a sequence of edits from the empty form. */
  function ApplyAll(s: FormScreen, es: seq<FormEvent>): FormScreen
    decreases |es|
  {
    if es == [] then s else ApplyAll(Apply(s, es[0]), es[1..])
  }

  lemma {:induction false} ApplyAllWellFormed(s: FormScreen, es: seq<FormEvent>)
    requires WellFormed(s.data)
    ensures WellFormed(ApplyAll(s, es).data)
    decreases |es|
  {
    if es != [] {
      ApplyPreservesWellFormed(s, es[0]);
      ApplyAllWellFormed(Apply(s, es[0]), es[1..]);
    }
  }

  /** Each tenure button's text reads back as its month count. */
  lemma TenureOptionsParse()
    ensures forall i :: 0 <= i < |TenureOptions| ==> ToNumber(TenureOptions[i]) == Finite(TenureMonths[i] as real)
  {
    forall i | 0 <= i < |TenureOptions|
      ensures ToNumber(TenureOptions[i]) == Finite(TenureMonths[i] as real)
    {
      assert TenureOptions[i] == NatToDecimal(TenureMonths[i]);
      ToNumberOfDecimal(TenureMonths[i]);
    }
  }

  /** A submitted well-formed form carries exactly ten decimal digits as the mobile number,
      a tenure of 3, 6, 12, 18 or 24 months and one of the listed purposes. */
  lemma SubmitWellFormed(s: FormScreen)
    requires WellFormed(s.data)
    ensures var out := Submit(s).1;
      out.Some? ==>
        && AllDigits(out.value.mobileNumber) && |out.value.mobileNumber| == MobileLength
        && out.value.tenure.Finite?
        && out.value.tenure.value in {3.0, 6.0, 12.0, 18.0, 24.0}
        && out.value.purpose in Purposes
  {
    var out := Submit(s).1;
    if out.Some? {
      var i :| 0 <= i < |TenureOptions| && TenureOptions[i] == s.data.tenure;
      TenureOptionsParse();
      assert out.value.tenure == Finite(TenureMonths[i] as real);
      assert TenureMonths[i] as real in {3.0, 6.0, 12.0, 18.0, 24.0};
    }
  }

  /** Whatever edits came before, a submitted form carries exactly ten decimal digits as the
      mobile number, a tenure of 3, 6, 12, 18 or 24 months and one of the listed purposes. */
  lemma SubmittedValuesInRange(es: seq<FormEvent>)
    ensures var out := Submit(ApplyAll(InitialScreen, es)).1;
      out.Some? ==>
        && AllDigits(out.value.mobileNumber) && |out.value.mobileNumber| == MobileLength
        && out.value.tenure.Finite?
        && out.value.tenure.value in {3.0, 6.0, 12.0, 18.0, 24.0}
        && out.value.purpose in Purposes
  {
    InitialWellFormed();
    ApplyAllWellFormed(InitialScreen, es);
    SubmitWellFormed(ApplyAll(InitialScreen, es));
  }

  /** The amount rule over every whole-rupee amount typed in decimal: below 1000 asks for
      the minimum, above 200000 states the maximum, anything between passes. */
  lemma AmountRule(n: nat)
    ensures n < 1000 ==> AmountError(NatToDecimal(n)) == Some(AmountTooLow)
    ensures n > 200000 ==> AmountError(NatToDecimal(n)) == Some(AmountTooHigh)
    ensures 1000 <= n <= 200000 ==> AmountError(NatToDecimal(n)) == None
  {
    ToNumberOfDecimal(n);
  }

  /** An empty amount reads as 0 and is below the minimum. */
  lemma EmptyAmountTooLow()
    ensures AmountError("") == Some(AmountTooLow)
  {
  }

  /** Amounts in exponent notation, which a number field accepts, are checked by value. */
  lemma ExponentAmounts()
    ensures AmountError("1e6") == Some(AmountTooHigh)
    ensures AmountError("2.5E3") == None
  {
    ExponentMillion();
    ExponentWithPoint();
  }

  /** An amount that `Number` cannot read (NaN) raises no amount error. The number field
      never hands such text over (the browser reports unparsable input as ""), so on the
      screen this path is not taken; the check itself lets it through. */
  lemma NonNumericAmountPasses()
    ensures AmountError("12a") == None
  {
    assert IndexOf("12a", '.') == None;
    assert IndexOfExponent("12a") == None;
    assert !AllDigits("12a") by { assert !IsDigit("12a"[2]); }
  }

  /** Amount 500 is rejected with the minimum message and the form stays as entered. */
  lemma ScenarioAmountTooLow()
    ensures var d := FormData("500", "12", Purposes[0], "9123456789");
      var r := Submit(FormScreen(d, map[]));
      r.1.None? && r.0.errors == map[AmountField := AmountTooLow] && r.0.data == d
  {
    AmountRule(500);
    assert NatToDecimal(500) == "500";
  }

  /** 50000 rupees over 12 months, a listed purpose and "9123456789" is handed on. */
  lemma ScenarioAccepted()
    ensures var d := FormData("50000", "12", Purposes[0], "9123456789");
      Submit(FormScreen(d, map[])).1 == Some(Submission(Finite(50000.0), Finite(12.0), Purposes[0], "9123456789"))
  {
    AmountRule(50000);
    assert NatToDecimal(50000) == "50000";
    ToNumberOfDecimal(50000);
    ToNumberOfDecimal(12);
    assert NatToDecimal(12) == "12";
  }
}

=== FILE: my_loans.dfy ===
/** The loans-and-repayment screen: the active loan's progress, remaining balance and due
    alert, and the payment history tab. */
module MyLoans {
  import opened JsNumbers

  datatype Loan = Loan(id: string, amount: nat, emi: nat, tenure: nat, paidInstallments: nat, nextDueDate: string, daysUntilDue: int)

  datatype Transaction = Transaction(id: string, date: string, amount: nat, viaMethod: string)

  const ActiveLoan: Loan := Loan("RL001234", 50000, 4583, 12, 3, "2024-01-15", 5)

  const Transactions: seq<Transaction> := [
    Transaction("TXN001", "2023-12-15", 4583, "UPI"),
    Transaction("TXN002", "2023-11-15", 4583, "Bank Transfer"),
    Transaction("TXN003", "2023-10-15", 4583, "UPI")
  ]

  /** Days before the due date at or below which the alert turns red. */
  const UrgentDays: int := 3

  /** The unpaid instalments times the instalment. */
  function Remaining(l: Loan): (r: int)
    ensures r + l.paidInstallments * l.emi == l.tenure * l.emi
    ensures l.emi > 0 ==> (r == 0 <==> l.paidInstallments == l.tenure)
    ensures l.paidInstallments <= l.tenure ==> r >= 0
  {
    (l.tenure - l.paidInstallments) * l.emi
  }

  /** The progress label: the paid share of the tenure in percent, rounded. */
  function DisplayedProgress(l: Loan): (p: int)
    requires l.tenure > 0
    ensures l.paidInstallments <= l.tenure ==> 0 <= p <= 100
    ensures l.paidInstallments == l.tenure ==> p == 100
    ensures l.paidInstallments == 0 ==> p == 0
    ensures p as real - 0.5 <= l.paidInstallments as real * 100.0 / l.tenure as real < p as real + 0.5
  {
    FractionAtMostOne(l.paidInstallments as real, l.tenure as real);
    ShareInPercent(l.paidInstallments as real, l.tenure as real);
    Round(l.paidInstallments as real / l.tenure as real * 100.0)
  }

  /** The share in percent does not depend on whether the division comes first. */
  lemma ShareInPercent(a: real, b: real)
    requires b > 0.0
    ensures a / b * 100.0 == a * 100.0 / b
  {
    var q := a / b;
    assert q * b == a;
    assert (q * 100.0) * b == a * 100.0;
  }

  lemma FractionAtMostOne(a: real, b: real)
    requires b > 0.0 && a >= 0.0
    ensures a / b >= 0.0
    ensures a <= b ==> a / b <= 1.0
    ensures a == b ==> a / b == 1.0
  {
    var q := a / b;
    assert q * b == a;
  }

  datatype AlertTone = Red | Orange

  function DueAlert(l: Loan): (t: AlertTone)
    ensures t == Red <==> l.daysUntilDue <= UrgentDays
  {
    if l.daysUntilDue <= UrgentDays then Red else Orange
  }

  datatype Tab = LoansTab | HistoryTab

  /** The count shown on each tab: one active loan, and one per transaction. */
  function TabCount(t: Tab, history: seq<Transaction>): (n: nat)
    ensures t == HistoryTab ==> n == |history|
    ensures t == LoansTab ==> n == 1
  {
    match t
    case LoansTab => 1
    case HistoryTab => |history|
  }

  function TotalPaid(history: seq<Transaction>): nat {
    if history == [] then 0 else history[0].amount + TotalPaid(history[1..])
  }

  /** The figures the screen shows for its loan: 9 instalments of 4583 left, 25% paid, an
      orange alert five days out, three history entries whose sum is the three paid
      instalments. */
  lemma ActiveLoanFigures()
    ensures Remaining(ActiveLoan) == 41247
    ensures DisplayedProgress(ActiveLoan) == 25
    ensures DueAlert(ActiveLoan) == Orange
    ensures TabCount(HistoryTab, Transactions) == 3
    ensures TotalPaid(Transactions) == ActiveLoan.paidInstallments * ActiveLoan.emi
  {
    assert ActiveLoan.paidInstallments as real / ActiveLoan.tenure as real == 0.25;
  }
}

=== FILE: offer_card.dfy ===
/** The loan-offer record and the card that displays it (status header, fee row, total payable). */
module OfferCard {
  import opened Common

  datatype OfferStatus = Approved | Pending | Rejected

  /** A loan offer as held by the app state and shown on the decision and consent screens. */
  datatype LoanOffer = LoanOffer(
    status: OfferStatus,
    amount: real,
    tenure: real,
    emi: real,
    interestRate: real,
    processingFee: real)

  /** The card's inputs; the processing fee may be omitted by the caller. */
  datatype CardProps = CardProps(
    status: OfferStatus,
    amount: real,
    tenure: real,
    emi: real,
    interestRate: real,
    processingFee: Option<real>)

  /** `<RLOfferCard {...offer} />`: every field passed through, the fee given explicitly. */
  function PropsOf(o: LoanOffer): (p: CardProps)
    ensures p.status == o.status && p.amount == o.amount && p.tenure == o.tenure
    ensures p.emi == o.emi && p.interestRate == o.interestRate
    ensures p.processingFee == Some(o.processingFee)
  {
    CardProps(o.status, o.amount, o.tenure, o.emi, o.interestRate, Some(o.processingFee))
  }

  /** The fee after the parameter default of 0. */
  function Fee(p: CardProps): real {
    p.processingFee.GetOr(0.0)
  }

  /** The "total payable" line: every instalment plus the processing fee. */
  function TotalPayable(p: CardProps): real {
    p.emi * p.tenure + Fee(p)
  }

  /** The processing-fee row is rendered only for a positive fee. */
  predicate ShowsFeeRow(p: CardProps) {
    Fee(p) > 0.0
  }

  /** An omitted fee counts as zero, so the total is just the instalments; a given fee
      is added on top of them. */
  lemma TotalPayableDefaults(p: CardProps)
    ensures p.processingFee.None? ==> TotalPayable(p) == p.emi * p.tenure && !ShowsFeeRow(p)
    ensures p.processingFee.Some? ==> TotalPayable(p) - p.processingFee.value == p.emi * p.tenure
  {
  }

  /** The header title of each status. */
  function StatusTitle(s: OfferStatus): (t: string)
    ensures t != ""
  {
    match s
    case Approved => "ऋण स्वीकृत!"
    case Pending => "समीक्षा में"
    case Rejected => "ऋण अस्वीकृत"
  }

  /** The three statuses never share a title, so the header identifies the status. */
  lemma StatusTitleInjective(s: OfferStatus, t: OfferStatus)
    ensures StatusTitle(s) == StatusTitle(t) <==> s == t
  {
    if s != t {
      match s
      case Approved => assert StatusTitle(s)[0] == 'ऋ' && StatusTitle(s) != "ऋण अस्वीकृत";
      case Pending => assert StatusTitle(s)[0] == 'स';
      case Rejected => assert StatusTitle(s)[0] == 'ऋ' && StatusTitle(s) != "ऋण स्वीकृत!";
    }
  }
}

=== FILE: offline_queue.dfy ===
/** The offline-recovery screen: a list of queued uploads, drained one entry at a time in
    list order in steps of 10% progress, and the actions offered while online or offline. */
module OfflineQueue {

  datatype Status = Pending | Uploading | Completed

  datatype Upload = Upload(id: string, name: string, status: Status, size: string, progress: int)

  /** The queue the screen starts with: both KYC photos pending, the application data sent. */
  const InitialUploads: seq<Upload> := [
    Upload("kyc_id", "आधार कार्ड फोटो", Pending, "2.3 MB", 0),
    Upload("kyc_selfie", "सेल्फी फोटो", Pending, "1.8 MB", 0),
    Upload("application_data", "आवेदन डेटा", Completed, "12 KB", 100)
  ]

  const ProgressStep: int := 10

  /** Where the drain stands: idle, ticking the entry `targets[index]` at `progress`, or in
      the pause before the next entry (`Gap`). `targets` is the snapshot of pending ids
      taken when the drain started. */
  datatype Drain =
    | Idle
    | Ticking(targets: seq<string>, index: nat, progress: int)
    | Gap(targets: seq<string>, index: nat)

  datatype OfflineScreen = OfflineScreen(online: bool, uploads: seq<Upload>, isUploading: bool, drain: Drain)

  /** The upload-now press, one progress tick, the pause before the next entry running
      out, and a connectivity change. */
  datatype OfflineEvent = PressUploadNow | Tick | GapElapsed | ConnectivityChanged(online: bool)

  /** The screen's actions. */
  datatype Action = ResumeAction | UploadNowAction | UploadOnWifiAction | ReloadAction | LaterAction

  function InitialScreen(online: bool): OfflineScreen {
    OfflineScreen(online, InitialUploads, false, Idle)
  }

  /** The number shown in the list heading: entries still `pending`. */
  function PendingCount(us: seq<Upload>): (n: nat)
    ensures n <= |us|
  {
    if us == [] then 0 else (if us[0].status == Pending then 1 else 0) + PendingCount(us[1..])
  }

  /** Every entry has been uploaded. */
  predicate AllUploaded(us: seq<Upload>) {
    forall i :: 0 <= i < |us| ==> us[i].status == Completed
  }

  /** The ids of the pending entries, in list order: the snapshot a drain works through. */
  function PendingIds(us: seq<Upload>): (ids: seq<string>)
    ensures |ids| == PendingCount(us)
    ensures forall id :: id in ids <==> exists j :: 0 <= j < |us| && us[j].status == Pending && us[j].id == id
  {
    if us == [] then []
    else
      var rest := PendingIds(us[1..]);
      assert forall id :: id in rest <==> exists j :: 1 <= j < |us| && us[j].status == Pending && us[j].id == id by {
        forall id | id in rest ensures exists j :: 1 <= j < |us| && us[j].status == Pending && us[j].id == id {
          var k :| 0 <= k < |us[1..]| && us[1..][k].status == Pending && us[1..][k].id == id;
          assert us[k + 1] == us[1..][k];
        }
        forall id | exists j :: 1 <= j < |us| && us[j].status == Pending && us[j].id == id ensures id in rest {
          var j :| 1 <= j < |us| && us[j].status == Pending && us[j].id == id;
          assert us[1..][j - 1] == us[j];
        }
      }
      if us[0].status == Pending then [us[0].id] + rest else rest
  }

  predicate UniqueIds(us: seq<Upload>) {
    forall i, j :: 0 <= i < j < |us| ==> us[i].id != us[j].id
  }

  predicate Distinct(ids: seq<string>) {
    forall a, b :: 0 <= a < b < |ids| ==> ids[a] != ids[b]
  }

  lemma {:induction false} PendingIdsDistinct(us: seq<Upload>)
    requires UniqueIds(us)
    ensures Distinct(PendingIds(us))
  {
    if us != [] {
      var rest := PendingIds(us[1..]);
      assert UniqueIds(us[1..]) by {
        forall i, j | 0 <= i < j < |us[1..]| ensures us[1..][i].id != us[1..][j].id {
          assert us[1..][i] == us[i + 1] && us[1..][j] == us[j + 1];
        }
      }
      PendingIdsDistinct(us[1..]);
      if us[0].status == Pending {
        forall k | 0 <= k < |us[1..]|
          ensures us[1..][k].id != us[0].id
        {
          assert us[1..][k] == us[k + 1];
        }
        assert us[0].id !in rest;
        var ids := [us[0].id] + rest;
        forall a, b | 0 <= a < b < |ids| ensures ids[a] != ids[b] {
          if a == 0 {
            assert ids[b] == rest[b - 1];
          } else {
            assert ids[a] == rest[a - 1] && ids[b] == rest[b - 1];
          }
        }
      }
    }
  }

  /** A pending count of zero means no entry waits; it does not mean all are uploaded, since
      an entry may be mid-upload. */
  lemma {:induction false} PendingCountZero(us: seq<Upload>)
    ensures PendingCount(us) == 0 <==> forall i :: 0 <= i < |us| ==> us[i].status != Pending
    ensures AllUploaded(us) ==> PendingCount(us) == 0
  {
    if us != [] {
      PendingCountZero(us[1..]);
      assert forall i :: 1 <= i < |us| ==> us[i] == us[1..][i - 1];
    }
  }

  lemma InitialCounts()
    ensures PendingCount(InitialUploads) == 2 && !AllUploaded(InitialUploads)
    ensures PendingIds(InitialUploads) == ["kyc_id", "kyc_selfie"]
    ensures UniqueIds(InitialUploads)
  {
  }

  /** One tick's update: every entry with the current id takes the new progress, and is
      `completed` exactly at 100, `uploading` below; every other entry is untouched. */
  function SetProgress(us: seq<Upload>, id: string, p: int): (r: seq<Upload>)
    ensures |r| == |us|
    ensures forall j :: 0 <= j < |us| ==>
      r[j] == (if us[j].id == id then us[j].(progress := p, status := if p == 100 then Completed else Uploading) else us[j])
  {
    seq(|us|, j requires 0 <= j < |us| =>
      if us[j].id == id then us[j].(progress := p, status := if p == 100 then Completed else Uploading) else us[j])
  }

  /** `uploadNext`: start ticking entry `index` from 0, or stop the drain after the last. */
  function UploadNext(s: OfflineScreen, targets: seq<string>, index: nat): (r: OfflineScreen)
    ensures r.uploads == s.uploads && r.online == s.online
    ensures index >= |targets| ==> r.drain == Idle && !r.isUploading
    ensures index < |targets| ==> r.drain == Ticking(targets, index, 0) && r.isUploading == s.isUploading
  {
    if index >= |targets| then s.(isUploading := false, drain := Idle)
    else s.(drain := Ticking(targets, index, 0))
  }

  /** The upload-now button is on screen and enabled. */
  predicate CanUploadNow(s: OfflineScreen) {
    s.online && !AllUploaded(s.uploads) && !s.isUploading
  }

  /** Online with everything uploaded, resume is offered; online otherwise, upload-now and
      upload-on-wifi; offline, reload and later. */
  function Actions(s: OfflineScreen): (r: set<Action>)
    ensures ResumeAction in r <==> s.online && AllUploaded(s.uploads)
    ensures UploadNowAction in r <==> s.online && !AllUploaded(s.uploads)
    ensures UploadOnWifiAction in r <==> s.online && !AllUploaded(s.uploads)
    ensures ReloadAction in r <==> !s.online
    ensures LaterAction in r <==> !s.online
  {
    if !s.online then {ReloadAction, LaterAction}
    else if AllUploaded(s.uploads) then {ResumeAction}
    else {UploadNowAction, UploadOnWifiAction}
  }

  function Step(s: OfflineScreen, e: OfflineEvent): (r: OfflineScreen)
    ensures e.ConnectivityChanged? ==> r == s.(online := e.online)
    ensures e.PressUploadNow? && !CanUploadNow(s) ==> r == s
    ensures e.PressUploadNow? && CanUploadNow(s) ==> r.uploads == s.uploads
    ensures !e.Tick? ==> r.uploads == s.uploads
  {
    match e
    case ConnectivityChanged(online) => s.(online := online)
    case PressUploadNow =>
      if CanUploadNow(s) then UploadNext(s.(isUploading := true), PendingIds(s.uploads), 0) else s
    case Tick =>
      if s.drain.Ticking? && s.drain.index < |s.drain.targets| then
        var p := s.drain.progress + ProgressStep;
        var us := SetProgress(s.uploads, s.drain.targets[s.drain.index], p);
        if p >= 100 then s.(uploads := us, drain := Gap(s.drain.targets, s.drain.index + 1))
        else s.(uploads := us, drain := Ticking(s.drain.targets, s.drain.index, p))
      else s
    case GapElapsed =>
      if s.drain.Gap? then UploadNext(s, s.drain.targets, s.drain.index) else s
  }

  /** A tick changes only the entry being uploaded: every entry with another id keeps its
      status and progress. */
  lemma TickTouchesOnlyCurrent(s: OfflineScreen)
    requires s.drain.Ticking? && s.drain.index < |s.drain.targets|
    ensures var r := Step(s, Tick);
      forall j :: 0 <= j < |s.uploads| && s.uploads[j].id != s.drain.targets[s.drain.index] ==>
        r.uploads[j] == s.uploads[j]
  {
  }

  /** What entry `orig` looks like while the drain stands at (`index`, `p`): finished if
      its id was already drained, at `p` if it is the current one, untouched otherwise. */
  function Expected(orig: Upload, targets: seq<string>, index: nat, p: int): Upload {
    if orig.id in targets[..if index <= |targets| then index else |targets|] then
      orig.(progress := 100, status := Completed)
    else if index < |targets| && orig.id == targets[index] && p > 0 then
      orig.(progress := p, status := if p == 100 then Completed else Uploading)
    else orig
  }

  /** The drain's position as (entry index, progress); idle counts as past the last entry. */
  function Cursor(d: Drain, n: nat): (nat, int) {
    match d
    case Idle => (n, 0)
    case Ticking(_, i, p) => (i, p)
    case Gap(_, i) => (i, 0)
  }

  /** Decreases with every tick and every pause. */
  function Measure(d: Drain, n: nat): int {
    match d
    case Idle => 0
    case Ticking(_, i, p) => 12 * (n - i) - p / 10
    case Gap(_, i) => 12 * (n - i) + 1
  }

  /** What holds at every point of a drain that started from the list `orig` with the
      snapshot `targets`. */
  predicate DrainInv(orig: seq<Upload>, t: OfflineScreen, targets: seq<string>) {
    var n := |targets|;
    && |t.uploads| == |orig|
    && (t.isUploading <==> !t.drain.Idle?)
    && (t.drain.Ticking? ==>
          t.drain.targets == targets && t.drain.index < n && 0 <= t.drain.progress < 100 && t.drain.progress % 10 == 0)
    && (t.drain.Gap? ==> t.drain.targets == targets && t.drain.index <= n)
    && forall j :: 0 <= j < |orig| ==>
         t.uploads[j] == Expected(orig[j], targets, Cursor(t.drain, n).0, Cursor(t.drain, n).1)
  }

  /** The next timer event of a running drain: a tick while ticking, the pause otherwise. */
  function NextTimer(d: Drain): OfflineEvent {
    if d.Ticking? then Tick else GapElapsed
  }

  lemma {:induction false} DrainStepKeepsInv(orig: seq<Upload>, t: OfflineScreen, targets: seq<string>)
    requires Distinct(targets) && DrainInv(orig, t, targets) && !t.drain.Idle?
    ensures var r := Step(t, NextTimer(t.drain));
      DrainInv(orig, r, targets) && r.online == t.online
      && Measure(r.drain, |targets|) < Measure(t.drain, |targets|)
  {
    var n := |targets|;
    var r := Step(t, NextTimer(t.drain));
    if t.drain.Ticking? {
      var i, p := t.drain.index, t.drain.progress;
      var cur := targets[i];
      assert cur !in targets[..i];
      assert targets[..i + 1] == targets[..i] + [cur];
      var (i', p') := Cursor(r.drain, n);
      forall j | 0 <= j < |orig|
        ensures r.uploads[j] == Expected(orig[j], targets, i', p')
      {
        assert t.uploads[j].id == orig[j].id;
      }
    }
  }

  /** A press of upload-now followed by ticks and pauses until the drain stops: every entry
      that was pending ends completed at 100, in list order one after the other, and every
      other entry is exactly as it was. */
  method DrainAll(s: OfflineScreen) returns (t: OfflineScreen)
    requires CanUploadNow(s) && s.drain.Idle? && UniqueIds(s.uploads)
    ensures t.drain == Idle && !t.isUploading && t.online == s.online
    ensures |t.uploads| == |s.uploads|
    ensures forall j :: 0 <= j < |s.uploads| ==>
      t.uploads[j] == (if s.uploads[j].status == Pending then s.uploads[j].(progress := 100, status := Completed) else s.uploads[j])
  {
    var targets := PendingIds(s.uploads);
    var n := |targets|;
    PendingIdsDistinct(s.uploads);
    t := Step(s, PressUploadNow);
    while !t.drain.Idle?
      invariant t.online == s.online
      invariant DrainInv(s.uploads, t, targets)
      decreases Measure(t.drain, n)
    {
      DrainStepKeepsInv(s.uploads, t, targets);
      t := Step(t, NextTimer(t.drain));
    }
    assert targets[..n] == targets;
    forall j | 0 <= j < |s.uploads|
      ensures t.uploads[j] ==
        (if s.uploads[j].status == Pending then s.uploads[j].(progress := 100, status := Completed) else s.uploads[j])
    {
      if s.uploads[j].status != Pending {
        forall k | 0 <= k < |s.uploads| && s.uploads[k].status == Pending
          ensures s.uploads[k].id != s.uploads[j].id
        {
          assert k != j;
        }
        assert s.uploads[j].id !in targets;
      }
    }
  }

  /** From the initial queue, draining leaves every entry uploaded, so resume is offered. */
  method DrainInitial() returns (t: OfflineScreen)
    ensures AllUploaded(t.uploads) && PendingCount(t.uploads) == 0
    ensures Actions(t) == {ResumeAction}
  {
    InitialCounts();
    t := DrainAll(InitialScreen(true));
    PendingCountZero(t.uploads);
  }
}

=== FILE: otp.dfy ===
/** The one-time-password input: a fixed number of single-character slots, edited one slot
    at a time or filled at once by a paste, reporting the joined slots to its owner. */
module Otp {
  import opened Common

  const DefaultLength: nat := 6

  /** The slots, left to right; each holds "" or one character. */
  type Buffer = seq<string>

  function Empties(n: nat): (b: Buffer)
    ensures |b| == n && forall i :: 0 <= i < n ==> b[i] == ""
  {
    seq(n, _ => "")
  }

  /** One slot per character of `s`. */
  function Singles(s: string): (b: Buffer)
    ensures |b| == |s| && forall i :: 0 <= i < |s| ==> b[i] == [s[i]]
  {
    seq(|s|, i requires 0 <= i < |s| => [s[i]])
  }

  /** `values.join('')`. */
  function Join(b: Buffer): string {
    if b == [] then "" else b[0] + Join(b[1..])
  }

  lemma {:induction false} JoinAppend(a: Buffer, b: Buffer)
    ensures Join(a + b) == Join(a) + Join(b)
  {
    if a != [] {
      assert (a + b)[0] == a[0] && (a + b)[1..] == a[1..] + b;
      JoinAppend(a[1..], b);
      calc {
        Join(a + b);
        a[0] + Join(a[1..] + b);
        a[0] + (Join(a[1..]) + Join(b));
        (a[0] + Join(a[1..])) + Join(b);
      }
    } else {
      assert a + b == b;
    }
  }

  lemma {:induction false} JoinEmpties(n: nat)
    ensures Join(Empties(n)) == ""
  {
    if n > 0 {
      assert Empties(n)[1..] == Empties(n - 1);
      JoinEmpties(n - 1);
    }
  }

  lemma {:induction false} JoinSingles(s: string)
    ensures Join(Singles(s)) == s
  {
    if s != [] {
      assert Singles(s)[1..] == Singles(s[1..]);
      JoinSingles(s[1..]);
    }
  }

  /** A buffer of one slot per character of `s` followed by empty slots joins back to `s`. */
  lemma JoinFilled(s: string, n: nat)
    ensures Join(Singles(s) + Empties(n)) == s
  {
    JoinAppend(Singles(s), Empties(n));
    JoinSingles(s);
    JoinEmpties(n);
  }

  /** `Array(length).fill('')`: the buffer before any input. */
  function InitialBuffer(length: nat): (b: Buffer)
    ensures |b| == length && Join(b) == ""
  {
    JoinEmpties(length);
    Empties(length)
  }

  function Min(a: int, b: int): int {
    if a < b then a else b
  }

  /** The effect that follows the `value` property: a non-empty value is spread over the
      slots, cut to `length` characters and padded with empty slots; an empty value leaves
      the buffer alone. */
  function SyncFromValue(buf: Buffer, value: string, length: nat): (r: Buffer)
    ensures value == "" ==> r == buf
    ensures value != "" ==> |r| == length
    ensures value != "" ==> forall i :: 0 <= i < length ==>
      r[i] == (if i < |value| then [value[i]] else "")
    ensures value != "" ==> Join(r) == value[..Min(|value|, length)]
  {
    if value == "" then buf
    else
      var v := value[..Min(|value|, length)];
      JoinFilled(v, length - |v|);
      Singles(v) + Empties(length - |v|)
  }

  /** Multi-character input is cut to its last character. */
  function LastChar(digit: string): (d: string)
    ensures |d| <= 1
    ensures |digit| <= 1 ==> d == digit
    ensures |digit| > 1 ==> d == [digit[|digit| - 1]]
  {
    if |digit| > 1 then digit[|digit| - 1..] else digit
  }

  /** A typed change in slot `index`. A disabled input, or a non-digit after the cut, leaves
      the buffer unchanged and reports nothing; otherwise exactly slot `index` takes the
      (possibly empty) digit and the joined slots are reported. */
  function HandleChange(buf: Buffer, index: nat, digit: string, disabled: bool): (r: (Buffer, Option<string>))
    requires index < |buf|
    ensures |r.0| == |buf|
    ensures r.1.Some? <==> !disabled && AllDigits(LastChar(digit))
    ensures r.1.None? ==> r.0 == buf
    ensures r.1.Some? ==> r.0[index] == LastChar(digit) && r.1.value == Join(r.0)
    ensures forall j :: 0 <= j < |buf| && j != index ==> r.0[j] == buf[j]
  {
    if disabled then (buf, None)
    else
      var d := LastChar(digit);
      if !AllDigits(d) then (buf, None)
      else
        var values := buf[index := d];
        (values, Some(Join(values)))
  }

  /** Every slot is empty or a single decimal digit. */
  predicate DigitSlots(b: Buffer) {
    forall i :: 0 <= i < |b| ==> |b[i]| <= 1 && AllDigits(b[i])
  }

  lemma {:induction false} JoinDigitSlots(b: Buffer)
    requires DigitSlots(b)
    ensures AllDigits(Join(b)) && |Join(b)| <= |b|
  {
    if b != [] {
      JoinDigitSlots(b[1..]);
    }
  }

  /** Typed changes keep every slot a single digit or empty, so the reported code is a
      digit string no longer than the buffer. */
  lemma HandleChangeKeepsDigits(buf: Buffer, index: nat, digit: string, disabled: bool)
    requires index < |buf| && DigitSlots(buf)
    ensures DigitSlots(HandleChange(buf, index, digit, disabled).0)
    ensures var out := HandleChange(buf, index, digit, disabled).1;
      out.Some? ==> AllDigits(out.value) && |out.value| <= |buf|
  {
    var r := HandleChange(buf, index, digit, disabled);
    if r.1.Some? {
      JoinDigitSlots(r.0);
    }
  }

  /** A paste: non-digits are dropped, the rest cut to `length`, laid into the slots from
      the left, and reported; focus goes to the slot after the last digit, or the last slot. */
  function Paste(pasted: string, length: nat): (r: (Buffer, string, int))
    ensures r.1 == KeepDigits(pasted)[..Min(|KeepDigits(pasted)|, length)]
    ensures |r.0| == length && Join(r.0) == r.1
    ensures forall i :: 0 <= i < length ==> r.0[i] == (if i < |r.1| then [r.1[i]] else "")
    ensures DigitSlots(r.0)
    ensures r.2 == Min(|r.1|, length - 1)
    ensures length > 0 ==> 0 <= r.2 < length
  {
    var all := KeepDigits(pasted);
    var digits := all[..Min(|all|, length)];
    JoinFilled(digits, length - |digits|);
    (Singles(digits) + Empties(length - |digits|), digits, Min(|digits|, length - 1))
  }

  /** The default field: six empty slots and an empty value. */
  lemma DefaultBuffer()
    ensures InitialBuffer(DefaultLength) == ["", "", "", "", "", ""]
    ensures Join(InitialBuffer(DefaultLength)) == ""
  {
  }

  /** A paste of at least `length` digits fills every slot; a paste with no digit clears them. */
  lemma PasteExtremes(pasted: string, length: nat)
    ensures |KeepDigits(pasted)| >= length ==> forall i :: 0 <= i < length ==> Paste(pasted, length).0[i] != ""
    ensures KeepDigits(pasted) == "" ==> Paste(pasted, length).0 == InitialBuffer(length)
  {
  }
}

=== FILE: progress_bar.dfy ===
/** The progress bar: a filled width in percent and, when step labels are given, one
    numbered marker per step coloured by its position relative to the current step. */
module ProgressBar {

  /** `Math.min(100, Math.max(0, progress))`. */
  function Clamp(p: real): (w: real)
    ensures 0.0 <= w <= 100.0
    ensures 0.0 <= p <= 100.0 ==> w == p
    ensures p < 0.0 ==> w == 0.0
    ensures p > 100.0 ==> w == 100.0
  {
    if p > 100.0 then 100.0 else if p < 0.0 then 0.0 else p
  }

  /** Clamping a clamped width changes nothing, and clamping keeps the order of widths. */
  lemma ClampIdempotentMonotone(p: real, q: real)
    ensures Clamp(Clamp(p)) == Clamp(p)
    ensures p <= q ==> Clamp(p) <= Clamp(q)
  {
  }

  datatype StepKind = Done | Current | Upcoming

  /** The marker circle's colour class. */
  function Classify(index: nat, current: int): (k: StepKind)
    ensures k == Done <==> index < current
    ensures k == Current <==> index == current
    ensures k == Upcoming <==> index > current
  {
    if index < current then Done else if index == current then Current else Upcoming
  }

  datatype Marker = Marker(number: nat, caption: string, highlighted: bool, kind: StepKind)

  /** The markers: none without labels; otherwise marker `i` shows the number `i + 1`, the
      `i`-th label, is highlighted up to and including the current step, and is classified
      against the current step. */
  function Markers(steps: seq<string>, current: int): (ms: seq<Marker>)
    ensures |ms| == |steps|
    ensures forall i :: 0 <= i < |ms| ==>
      ms[i] == Marker(i + 1, steps[i], i <= current, Classify(i, current))
  {
    seq(|steps|, i requires 0 <= i < |steps| => Marker(i + 1, steps[i], i <= current, Classify(i, current)))
  }

  /** Highlighting is exactly "not upcoming", and at most one marker is the current one. */
  lemma MarkerShapes(steps: seq<string>, current: int)
    ensures forall i :: 0 <= i < |steps| ==>
      (Markers(steps, current)[i].highlighted <==> Markers(steps, current)[i].kind != Upcoming)
    ensures forall i, j ::
      (0 <= i < |steps| && 0 <= j < |steps| &&
       Markers(steps, current)[i].kind == Current && Markers(steps, current)[j].kind == Current)
      ==> i == j
  {
  }
}

=== FILE: underwriting.dfy ===
/** The underwriting progress screen: three fixed stages completed strictly in order, the
    per-stage status shown to the user, and the final hand-off to the decision. */
module Underwriting {
  import opened JsNumbers

  datatype Stage = Documents | Credit | Ai

  /** The stages in display and completion order. */
  const Stages: seq<Stage> := [Documents, Credit, Ai]

  datatype StageStatus = StageCompleted | StageCurrent | StagePending

  /** `currentStepIndex`, `completedSteps`, and whether `onComplete` has been scheduled. */
  datatype UwScreen = UwScreen(currentIndex: nat, completed: seq<Stage>, finishScheduled: bool)

  const InitialScreen: UwScreen := UwScreen(0, [], false)

  /** The completion timer of the current stage: its id is appended; before the last stage
      the index moves on, at the last one the index stays and `onComplete` is scheduled.
      A stage already completed is not completed again (one completion per stage). */
  function CompleteStage(s: UwScreen): (r: UwScreen)
    ensures s.currentIndex < |Stages| && Stages[s.currentIndex] !in s.completed ==>
      && r.completed == s.completed + [Stages[s.currentIndex]]
      && (s.currentIndex < |Stages| - 1 ==> r.currentIndex == s.currentIndex + 1 && r.finishScheduled == s.finishScheduled)
      && (s.currentIndex == |Stages| - 1 ==> r.currentIndex == s.currentIndex && r.finishScheduled)
    ensures !(s.currentIndex < |Stages| && Stages[s.currentIndex] !in s.completed) ==> r == s
  {
    if s.currentIndex < |Stages| && Stages[s.currentIndex] !in s.completed then
      var done := s.completed + [Stages[s.currentIndex]];
      if s.currentIndex == |Stages| - 1 then UwScreen(s.currentIndex, done, true)
      else UwScreen(s.currentIndex + 1, done, s.finishScheduled)
    else s
  }

  /** `getStepStatus`: completed wins over current; everything else is pending. */
  function StageStatusOf(s: UwScreen, i: nat): StageStatus
    requires i < |Stages|
  {
    if Stages[i] in s.completed then StageCompleted
    else if i == s.currentIndex then StageCurrent
    else StagePending
  }

  /** The "% पूरा" label: completed stages, plus half a stage while the index is on one,
      over three stages, rounded. */
  function ProgressLabel(s: UwScreen): (p: int)
    ensures s.currentIndex < |Stages| ==> p as real - 0.5 <= (|s.completed| as real + 0.5) * 100.0 / 3.0 < p as real + 0.5
    ensures s.currentIndex >= |Stages| ==> p as real - 0.5 <= |s.completed| as real * 100.0 / 3.0 < p as real + 0.5
  {
    var half := if s.currentIndex < |Stages| then 0.5 else 0.0;
    Round((|s.completed| as real + half) / |Stages| as real * 100.0)
  }

  function Min(a: int, b: int): int {
    if a < b then a else b
  }

  /** The ordering invariant: the completed list is a prefix of the stage order, the index
      points at the first unfinished stage (or stays on the last), and the hand-off is
      scheduled exactly when all three are done. */
  predicate Ordered(s: UwScreen) {
    && |s.completed| <= |Stages|
    && s.completed == Stages[..|s.completed|]
    && s.currentIndex == Min(|s.completed|, |Stages| - 1)
    && (s.finishScheduled <==> |s.completed| == |Stages|)
  }

  lemma InitialOrdered()
    ensures Ordered(InitialScreen)
  {
  }

  /** Membership in a prefix of the stage order is membership by position. */
  lemma InPrefix(k: nat, i: nat)
    requires k <= |Stages| && i < |Stages|
    ensures Stages[i] in Stages[..k] <==> i < k
  {
    if Stages[i] in Stages[..k] {
      var j :| 0 <= j < k && Stages[..k][j] == Stages[i];
      assert Stages[j] == Stages[i];
    }
  }

  lemma CompleteStageKeepsOrdered(s: UwScreen)
    requires Ordered(s)
    ensures Ordered(CompleteStage(s))
  {
    var k := |s.completed|;
    if k < |Stages| {
      InPrefix(k, k);
      assert Stages[..k + 1] == Stages[..k] + [Stages[k]];
    } else {
      InPrefix(k, s.currentIndex);
    }
  }

  /** Under the ordering invariant the label reads 17, 50, 83 and, once all three stages are
      done, 117: the index stays on the last stage, so the half stage is still added. */
  lemma LabelUnderOrder(s: UwScreen)
    requires Ordered(s)
    ensures ProgressLabel(s) == [17, 50, 83, 117][|s.completed|]
    ensures s.finishScheduled ==> ProgressLabel(s) > 100
  {
  }

  /** `k` completion timers from the start. */
  function Completions(k: nat): UwScreen {
    if k == 0 then InitialScreen else CompleteStage(Completions(k - 1))
  }

  /** After `k` completions exactly the first min(k, 3) stages are done, in order, and the
      hand-off is scheduled from the third on. */
  lemma {:induction false} CompletionsProgress(k: nat)
    ensures Ordered(Completions(k))
    ensures Completions(k).completed == Stages[..Min(k, |Stages|)]
    ensures Completions(k).finishScheduled <==> k >= |Stages|
  {
    if k == 0 {
      InitialOrdered();
    } else {
      CompletionsProgress(k - 1);
      CompleteStageKeepsOrdered(Completions(k - 1));
      if k - 1 < |Stages| {
        InPrefix(k - 1, k - 1);
        assert Stages[..k] == Stages[..k - 1] + [Stages[k - 1]];
      } else {
        InPrefix(|Stages|, |Stages| - 1);
      }
    }
  }

  /** Under the ordering invariant the status column reads completed, then at most one
      current, then pending; the hand-off is scheduled only once `ai` is the last stage
      done. */
  lemma StatusesOrdered(s: UwScreen)
    requires Ordered(s)
    ensures forall i :: 0 <= i < |Stages| ==> (StageStatusOf(s, i) == StageCompleted <==> i < |s.completed|)
    ensures forall i, j ::
      (0 <= i < |Stages| && 0 <= j < |Stages| && StageStatusOf(s, i) == StageCurrent && StageStatusOf(s, j) == StageCurrent)
      ==> i == j
    ensures forall i, j :: 0 <= i < j < |Stages| && StageStatusOf(s, j) == StageCurrent ==>
      StageStatusOf(s, i) == StageCompleted
    ensures s.finishScheduled ==> s.completed[|s.completed| - 1] == Ai
  {
    forall i | 0 <= i < |Stages|
      ensures StageStatusOf(s, i) == StageCompleted <==> i < |s.completed|
    {
      InPrefix(|s.completed|, i);
    }
  }

  // The timers behind the screen. Every 100 ms tick of the interval schedules a 3-second
  // completion timer that captures the stage index current at that tick. Changing the index
  // clears only the interval; the completion timers already scheduled still fire.

  /** The screen together with the captured indexes of the completion timers still pending. */
  datatype UwTimers = UwTimers(screen: UwScreen, scheduled: seq<nat>)

  datatype UwEvent = IntervalTick | CompletionFires(which: nat)

  const InitialTimers: UwTimers := UwTimers(InitialScreen, [])

  /** Drops the `i`-th pending timer. */
  function RemoveAt(xs: seq<nat>, i: nat): (r: seq<nat>)
    requires i < |xs|
    ensures |r| == |xs| - 1
    ensures forall j :: 0 <= j < i ==> r[j] == xs[j]
    ensures forall j :: i <= j < |r| ==> r[j] == xs[j + 1]
  {
    xs[..i] + xs[i + 1..]
  }

  /** The timers as the component schedules them. A tick schedules a timer only while the
      index is below three. A firing timer appends the stage it captured; for the last stage
      it schedules `onComplete`, otherwise it increments the index, whatever that index has
      become since. Captured indexes are always below three, so the stage lookup is total on
      every reachable state. */
  function StepAsWritten(t: UwTimers, e: UwEvent): (r: UwTimers)
    ensures e.IntervalTick? && t.screen.currentIndex < |Stages| ==>
      r == UwTimers(t.screen, t.scheduled + [t.screen.currentIndex])
    ensures e.CompletionFires? && e.which < |t.scheduled| && t.scheduled[e.which] < |Stages| ==>
      && r.scheduled == RemoveAt(t.scheduled, e.which)
      && r.screen.completed == t.screen.completed + [Stages[t.scheduled[e.which]]]
      && (t.scheduled[e.which] < |Stages| - 1 ==>
            r.screen.currentIndex == t.screen.currentIndex + 1 && r.screen.finishScheduled == t.screen.finishScheduled)
      && (t.scheduled[e.which] == |Stages| - 1 ==>
            r.screen.currentIndex == t.screen.currentIndex && r.screen.finishScheduled)
    ensures e.IntervalTick? && t.screen.currentIndex >= |Stages| ==> r == t
    ensures e.CompletionFires? && !(e.which < |t.scheduled| && t.scheduled[e.which] < |Stages|) ==> r == t
  {
    match e
    case IntervalTick =>
      if t.screen.currentIndex < |Stages| then UwTimers(t.screen, t.scheduled + [t.screen.currentIndex])
      else t
    case CompletionFires(i) =>
      if i < |t.scheduled| && t.scheduled[i] < |Stages| then
        var k := t.scheduled[i];
        var s := t.screen;
        var done := s.completed + [Stages[k]];
        var screen := if k == |Stages| - 1 then UwScreen(s.currentIndex, done, true)
                      else UwScreen(s.currentIndex + 1, done, s.finishScheduled);
        UwTimers(screen, RemoveAt(t.scheduled, i))
      else t
  }

  /** The timers as intended: a completion timer whose captured stage is no longer the
      current one does nothing (as if the effect's clean-up also cleared it), and the current
      stage completes once. */
  function StepFixed(t: UwTimers, e: UwEvent): (r: UwTimers)
    ensures e.CompletionFires? && e.which < |t.scheduled| ==>
      r.screen == (if t.scheduled[e.which] == t.screen.currentIndex then CompleteStage(t.screen) else t.screen)
    ensures e.IntervalTick? ==> r.screen == t.screen
  {
    match e
    case IntervalTick =>
      if t.screen.currentIndex < |Stages| then UwTimers(t.screen, t.scheduled + [t.screen.currentIndex])
      else t
    case CompletionFires(i) =>
      if i < |t.scheduled| then
        var screen := if t.scheduled[i] == t.screen.currentIndex then CompleteStage(t.screen) else t.screen;
        UwTimers(screen, RemoveAt(t.scheduled, i))
      else t
  }

  function RunTimers(t: UwTimers, es: seq<UwEvent>, fixed: bool): UwTimers
    decreases |es|
  {
    if es == [] then t
    else RunTimers(if fixed then StepFixed(t, es[0]) else StepAsWritten(t, es[0]), es[1..], fixed)
  }

  /** Three ticks before the first completion timer fires, then those three timers firing:
      as written, `documents` is recorded three times, the index runs to 3, and the hand-off
      is not scheduled; with the fix, `documents` completes once and `credit` is current. */
  lemma StaleTimersSkipStages()
    ensures var es := [IntervalTick, IntervalTick, IntervalTick, CompletionFires(0), CompletionFires(0), CompletionFires(0)];
      && RunTimers(InitialTimers, es, false) == UwTimers(UwScreen(3, [Documents, Documents, Documents], false), [])
      && !Ordered(RunTimers(InitialTimers, es, false).screen)
      && RunTimers(InitialTimers, es, true) == UwTimers(UwScreen(1, [Documents], false), [])
  {
    var t1 := StepAsWritten(InitialTimers, IntervalTick);
    var t2 := StepAsWritten(t1, IntervalTick);
    var t3 := StepAsWritten(t2, IntervalTick);
    assert t3.scheduled == [0, 0, 0];
    var t4 := StepAsWritten(t3, CompletionFires(0));
    assert t4 == UwTimers(UwScreen(1, [Documents], false), [0, 0]);
    var t5 := StepAsWritten(t4, CompletionFires(0));
    assert t5 == UwTimers(UwScreen(2, [Documents, Documents], false), [0]);
  }

  /** The stuck state: index past the last stage, no timer pending, no hand-off. */
  predicate Stuck(t: UwTimers) {
    t.screen.currentIndex >= |Stages| && t.scheduled == [] && !t.screen.finishScheduled
  }

  /** As written, once the index has run past the last stage no event ever schedules the
      hand-off: the ticks schedule nothing and no timer is left to fire. */
  lemma {:induction false} StuckNeverHandsOff(t: UwTimers, es: seq<UwEvent>)
    requires Stuck(t)
    ensures Stuck(RunTimers(t, es, false))
    ensures !RunTimers(t, es, false).screen.finishScheduled
    decreases |es|
  {
    if es != [] {
      assert StepAsWritten(t, es[0]) == t;
      StuckNeverHandsOff(t, es[1..]);
    }
  }

  /** With the fix, any interleaving of ticks and firings keeps the ordering invariant:
      each stage completes once, in order, and the hand-off follows the third. */
  lemma {:induction false} FixedRunOrdered(t: UwTimers, es: seq<UwEvent>)
    requires Ordered(t.screen)
    ensures Ordered(RunTimers(t, es, true).screen)
    decreases |es|
  {
    if es != [] {
      if es[0].CompletionFires? && es[0].which < |t.scheduled| {
        CompleteStageKeepsOrdered(t.screen);
      }
      FixedRunOrdered(StepFixed(t, es[0]), es[1..]);
    }
  }
}

=== FILE: voice.dfy ===
/** The voice intake screen: four spoken prompts, a mocked recogniser that answers after a
    fixed delay, the transcript built from the answers, and the confirm/restart actions.

    Each press of the microphone that starts listening launches a recognition that runs on
    its own: after a first delay it is "heard" (processing starts), after a second one it is
    "recognised" (the answer is appended). A recognition remembers the prompt index that was
    current when it was launched, exactly as the timer callbacks of the screen capture it. */
module Voice {
  import opened Common
  import opened JsNumbers

  const Prompts: seq<string> := [
    "आपको कितने पैसे की जरूरत है?",
    "यह पैसा किस काम के लिए चाहिए?",
    "आप कितने महीने में वापस करना चाहते हैं?",
    "आपका मोबाइल नंबर क्या है?"
  ]

  const MockResponses: seq<string> := [
    "मुझे पचास हजार रुपये चाहिए",
    "घर की मरम्मत के लिए",
    "बारह महीने में वापस करूंगा",
    "मेरा नंबर है नौ एक दो तीन चार पांच छह सात आठ नौ"
  ]

  const Fallback: string := "समझ नहीं आया"

  /** The index of the last prompt. */
  const LastStep: nat := |Prompts| - 1

  /** A recognition in flight: the prompt index it captured, and whether its first delay
      has passed. */
  datatype Recognition = Recognition(capturedStep: nat, heard: bool)

  datatype VoiceScreen = VoiceScreen(
    isListening: bool,
    isProcessing: bool,
    transcript: string,
    isSpeakerOn: bool,
    currentStep: nat,
    inFlight: seq<Recognition>)

  datatype VoiceEvent =
    | MicClick
    | Heard(which: nat)
    | Recognized(which: nat)
    | Restart
    | ToggleSpeaker

  const InitialScreen: VoiceScreen := VoiceScreen(false, false, "", true, 0, [])

  /** The answer the mock recogniser gives for a prompt index. */
  function Answer(step: nat): (a: string)
    ensures a != ""
  {
    if step < |MockResponses| then MockResponses[step] else Fallback
  }

  /** The transcript line for an answer to prompt `step`. */
  function Line(step: nat): string {
    "प्रश्न " + NatToDecimal(step + 1) + ": " + Answer(step)
  }

  /** Appends a line, separated by a newline only from an earlier line. */
  function AppendLine(t: string, line: string): (r: string)
    ensures t == "" ==> r == line
    ensures t != "" ==> r == t + "\n" + line
  {
    t + (if t != "" then "\n" else "") + line
  }

  /** `isComplete`: past the third prompt, something said, and nothing being processed. */
  predicate IsComplete(s: VoiceScreen) {
    s.currentStep >= LastStep && s.transcript != "" && !s.isProcessing
  }

  /** The progress label: `Math.round((currentStep + 1) / prompts.length * 100)`. */
  function ProgressPercent(step: nat): (p: int)
    ensures p == (step + 1) * 25
    ensures step <= LastStep ==> 25 <= p <= 100
  {
    var share := (step + 1) as real / |Prompts| as real * 100.0;
    assert share == ((step + 1) * 25) as real;
    Round(share)
  }

  /** The microphone button is enabled: `disabled || isProcessing` is false. */
  predicate MicEnabled(s: VoiceScreen) {
    !IsComplete(s) && !s.isProcessing
  }

  function Remove(fs: seq<Recognition>, i: nat): (r: seq<Recognition>)
    requires i < |fs|
    ensures |r| == |fs| - 1
  {
    fs[..i] + fs[i + 1..]
  }

  /** The step after a recognition that captured `captured`, as the screen computes it: the
      bound is tested on the captured index, but the increment applies to the live one. */
  function NextStepAsWritten(current: nat, captured: nat): nat {
    if captured < LastStep then current + 1 else current
  }

  /** The same with the bound tested on the live index. */
  function NextStepFixed(current: nat, captured: nat): (n: nat)
    ensures current <= LastStep ==> n <= LastStep
    ensures current < LastStep ==> n == current + 1
    ensures current >= LastStep ==> n == current
  {
    if current < LastStep then current + 1 else current
  }

  /** One event. `fixed` selects the bound test of the increment; everything else is the
      screen as written. */
  function StepWith(s: VoiceScreen, e: VoiceEvent, fixed: bool): (r: VoiceScreen)
    ensures e.Restart? && IsComplete(s) ==> r.transcript == "" && r.currentStep == 0
    ensures e.MicClick? && MicEnabled(s) && s.isListening ==> !r.isListening && !r.isProcessing
    ensures e.Recognized? && e.which < |s.inFlight| && s.inFlight[e.which].heard ==>
      r.transcript == AppendLine(s.transcript, Line(s.inFlight[e.which].capturedStep)) && !r.isProcessing
    ensures r.transcript != s.transcript ==> e.Recognized? || e.Restart?
    ensures e.MicClick? && MicEnabled(s) && !s.isListening ==>
      r.isListening && r.inFlight == s.inFlight + [Recognition(s.currentStep, false)]
    ensures e.Heard? && e.which < |s.inFlight| && !s.inFlight[e.which].heard ==>
      r.isProcessing && !r.isListening && |r.inFlight| == |s.inFlight| && r.inFlight[e.which].heard
    ensures e.Recognized? && e.which < |s.inFlight| && s.inFlight[e.which].heard ==>
      r.currentStep == (if (if fixed then s.currentStep else s.inFlight[e.which].capturedStep) < LastStep
                        then s.currentStep + 1 else s.currentStep)
    ensures r.currentStep != s.currentStep ==> e.Recognized? || e.Restart?
    ensures e.ToggleSpeaker? ==> r == s.(isSpeakerOn := !s.isSpeakerOn)
  {
    match e
    case MicClick =>
      if !MicEnabled(s) then s
      else if s.isListening then s.(isListening := false, isProcessing := false)
      else s.(isListening := true, isProcessing := false, inFlight := s.inFlight + [Recognition(s.currentStep, false)])
    case Heard(i) =>
      if i < |s.inFlight| && !s.inFlight[i].heard then
        s.(isProcessing := true, isListening := false, inFlight := s.inFlight[i := s.inFlight[i].(heard := true)])
      else s
    case Recognized(i) =>
      if i < |s.inFlight| && s.inFlight[i].heard then
        var k := s.inFlight[i].capturedStep;
        s.(transcript := AppendLine(s.transcript, Line(k)),
           isProcessing := false,
           currentStep := if fixed then NextStepFixed(s.currentStep, k) else NextStepAsWritten(s.currentStep, k),
           inFlight := Remove(s.inFlight, i))
      else s
    case Restart =>
      if IsComplete(s) then s.(transcript := "", currentStep := 0) else s
    case ToggleSpeaker => s.(isSpeakerOn := !s.isSpeakerOn)
  }

  /** The screen as written. */
  function Step(s: VoiceScreen, e: VoiceEvent): VoiceScreen {
    StepWith(s, e, false)
  }

  /** The screen with the increment bounded on the live prompt index. */
  function StepFixed(s: VoiceScreen, e: VoiceEvent): VoiceScreen {
    StepWith(s, e, true)
  }

  function Run(s: VoiceScreen, es: seq<VoiceEvent>, fixed: bool): VoiceScreen
    decreases |es|
  {
    if es == [] then s else Run(StepWith(s, es[0], fixed), es[1..], fixed)
  }

  /** Confirm, offered only once complete, hands the transcript on unchanged. */
  function Confirm(s: VoiceScreen): (out: Option<string>)
    ensures out.Some? <==> IsComplete(s)
    ensures out.Some? ==> out.value == s.transcript && out.value != ""
  {
    if IsComplete(s) then Some(s.transcript) else None
  }

  /** With the fix, the prompt index never passes the last prompt, whatever the order of
      clicks and timer events. */
  lemma {:induction false} FixedStepBounded(s: VoiceScreen, es: seq<VoiceEvent>)
    requires s.currentStep <= LastStep
    ensures Run(s, es, true).currentStep <= LastStep
    decreases |es|
  {
    if es != [] {
      FixedStepBounded(StepWith(s, es[0], true), es[1..]);
    }
  }

  /** Sequential use: the user never starts listening while an earlier recognition is
      still in flight. */
  predicate Sequential(s: VoiceScreen, e: VoiceEvent) {
    !(e.MicClick? && MicEnabled(s) && !s.isListening && |s.inFlight| > 0)
  }

  /** What sequential use keeps: at most one recognition, which captured the live index,
      and the last prompt is reached only with something in the transcript. */
  predicate SequentialInv(s: VoiceScreen) {
    && s.currentStep <= LastStep
    && |s.inFlight| <= 1
    && (|s.inFlight| == 1 ==> s.inFlight[0].capturedStep == s.currentStep && s.currentStep < LastStep)
    && (s.currentStep == LastStep ==> s.transcript != "")
  }

  /** Under sequential use the screen as written and the fixed one agree, and the
      invariant holds after every event. */
  lemma SequentialStep(s: VoiceScreen, e: VoiceEvent)
    requires SequentialInv(s) && Sequential(s, e)
    ensures Step(s, e) == StepFixed(s, e)
    ensures SequentialInv(Step(s, e))
  {
  }

  predicate SequentialRun(s: VoiceScreen, es: seq<VoiceEvent>)
    decreases |es|
  {
    es == [] || (Sequential(s, es[0]) && SequentialRun(Step(s, es[0]), es[1..]))
  }

  /** Used sequentially, the screen as written never moves past the last prompt. */
  lemma {:induction false} SequentialRunBounded(s: VoiceScreen, es: seq<VoiceEvent>)
    requires SequentialInv(s) && SequentialRun(s, es)
    ensures SequentialInv(Run(s, es, false))
    ensures Run(s, es, false).currentStep <= LastStep
    decreases |es|
  {
    if es != [] {
      SequentialStep(s, es[0]);
      SequentialRunBounded(Step(s, es[0]), es[1..]);
    }
  }

  /** One spoken answer: start listening, the first delay, the second delay. */
  const AnswerOnce: seq<VoiceEvent> := [MicClick, Heard(0), Recognized(0)]

  /** Answering three times from the start completes the screen: the fourth prompt is
      shown but the microphone is disabled, so it is never answered. */
  lemma ThreeAnswersComplete()
    ensures var s := Run(InitialScreen, AnswerOnce + AnswerOnce + AnswerOnce, false);
      && s.currentStep == LastStep
      && s.transcript == Line(0) + "\n" + Line(1) + "\n" + Line(2)
      && IsComplete(s) && !MicEnabled(s)
  {
    var s1 := Run(InitialScreen, AnswerOnce, false);
    assert s1 == VoiceScreen(false, false, Line(0), true, 1, []);
    var s2 := Run(s1, AnswerOnce, false);
    assert s2 == VoiceScreen(false, false, Line(0) + "\n" + Line(1), true, 2, []);
    var s3 := Run(s2, AnswerOnce, false);
    assert s3 == VoiceScreen(false, false, Line(0) + "\n" + Line(1) + "\n" + Line(2), true, 3, []);
    RunAppend(InitialScreen, AnswerOnce, AnswerOnce);
    RunAppend(InitialScreen, AnswerOnce + AnswerOnce, AnswerOnce);
  }

  lemma {:induction false} RunAppend(s: VoiceScreen, a: seq<VoiceEvent>, b: seq<VoiceEvent>)
    ensures Run(s, a + b, false) == Run(Run(s, a, false), b, false)
    decreases |a|
  {
    if a != [] {
      assert (a + b)[0] == a[0] && (a + b)[1..] == a[1..] + b;
      RunAppend(StepWith(s, a[0], false), a[1..], b);
    } else {
      assert a + b == b;
    }
  }

  /** Two recognitions launched at the third prompt (start, stop, start again before the
      first answer lands): as written both increment the index, which ends past the last
      prompt. With the fix it stays on the last prompt. */
  lemma RaceOvershoots()
    ensures var s := VoiceScreen(false, false, Line(0) + "\n" + Line(1), true, 2, []);
      var es := [MicClick, MicClick, MicClick, Heard(0), Heard(1), Recognized(0), Recognized(0)];
      && Run(s, es, false).currentStep == LastStep + 1
      && ProgressPercent(Run(s, es, false).currentStep) == 125
      && Run(s, es, true).currentStep == LastStep
  {
  }
}
